=== FILE: README.md ===
# fastapi-exts core, modelled in Dafny

This project models the sequential logic at the core of `fastapi-exts`, a set of FastAPI extensions. Each Python source file becomes one Dafny module of pure functions over immutable datatypes:

| module | file | what it models |
|---|---|---|
| `DeepMerge` (`merge.dfy`) | `_utils.py` | `merge`, `_merge_dict`, `_merge_list`: the recursive merge of a source dict into a target dict |
| `Paths` (`path.dfy`) | `contrib/path.py` | the `Path` string type: the stripping regex, construction, `/` and `parent` |
| `Responses` (`responses.dfy`) | `contrib/responses.py` | `build_responses`, `_info_responses`, `_merge_responses`: the OpenAPI response table |
| `Pagination` (`pagination.dfy`) | `contrib/pagination.py` | `PageParamsModel`, `Page`, `page`, `api_page` |
| `CorrelationLog` (`correlation.dfy`) | `correlation_id/log.py` | `_trim_string` and the `CorrelationIdLogFilter.filter` |
| `HttpErrors` (`errors.dfy`) | `exceptions.py` | `HTTPCodeError`, `HTTPProblem` and `ext_http_error_handler` |
| `LogRecord` (`logrecord.dfy`) | `decorators/log_record/interfaces.py` | the registries, handler lists and hook order of the synchronous log-record decorator |
| `Wrappers` (`wrappers.dfy`) | — | `Option` and `Result` |

Conventions used throughout:

- **Exceptions.** A Python exception is a `Failure` value. A call that mutates its argument returns the updated value instead.
- **Dicts and strings.** Dicts are `map`s, so key order is not modelled. Strings are `seq<char>`.
- **Parameters.** These are passed in as parameters rather than modelled:
  - the context variable of the correlation filter;
  - pydantic's `model_validate` of a page's result model;
  - FastAPI's `is_body_allowed_for_status_code`;
  - the outcome of running a wrapped function.
- **Deep merge.** The three Python merge functions differ only in their per-entry rules, so one `DeepMerge.Entry` holds the rules and takes the level it runs at (`merge`, `_merge_dict` or `_merge_list`).
- **Path stripping.** The stripping regex is modelled as an explicit greedy scanner. It tries the separator before the prefix, in the order of the regex alternation.
- **Log-record decorator.** One call is modelled as the trace of hook events it produces, together with the value it returns or the exception it re-raises.

Where the code's behaviour is easy to misread, the model follows the code:

- **Overflowing list merge.** In `_merge_list`, a source list longer than the target list does not get its first overflowing element appended. `target[oi] = ov` on a list index past the end raises `IndexError`. The model returns `Failure(IndexError)` (`_utils.py:74-77`).
- **Dict merges inside lists.** A dict found inside a list is merged by the top-level `merge`, so lists inside it concatenate rather than merge position by position (`_utils.py:79-80`).
- **Prefixes that contain the separator.** With such a prefix, `Path(Path(s))` repeats the prefix, because the greedy scan consumes the separators before it can see the prefix. `Paths.SeparatorInPrefixRepeats` shows this for the prefix `/api`, and the other `Path` laws assume a prefix without the separator (`Paths.ValidConfig`).

## Model

| member | source | states |
|---|---|---|
| DeepMerge.Entry | src/fastapi_exts/_utils.py:50-94 | merging into a falsy top-level value yields the source value; a truthy target is never emptied and keeps its type; two dicts merge key by key with the union of keys and target-only keys untouched; only a dict merge or a nested list merge can fail |
| DeepMerge.MergeMap | src/fastapi_exts/_utils.py:46-68 | the loop over the source keys succeeds exactly when every key's entry merge does; the result holds the union of the keys, target-only keys untouched, every source key holding its entry merge; it reports the unmodelled case exactly when some entry does |
| DeepMerge.MergeSeq | src/fastapi_exts/_utils.py:71-94 | from position `i` on, the list merge succeeds exactly when the source is no longer than the target and every position merges; the length is kept, positions outside the source are untouched, and every other position holds its entry merge |
| DeepMerge.Merge | src/fastapi_exts/_utils.py:103-123 | keys are the union of target and source keys; target-only keys are untouched; absent or falsy target values take the source value; a truthy str/int/bool target, or one of another type, is kept; two lists or two tuples concatenate in order; two dicts are merged by `_merge_dict`; the merge fails exactly when a nested dict merge fails |
| DeepMerge.MergeDict | src/fastapi_exts/_utils.py:46-68 | key union with target-only keys untouched and source-only keys copied; a target list merges position by position with a list or tuple source; nested dicts merge recursively keeping target-only keys; two tuples concatenate; otherwise an absent or falsy target takes the source value and a truthy str/int/bool target, or one of another type, is kept (`v or ov`); a nested source list longer than its target list makes the call fail, and only a nested dict merge or a list merge can make it fail |
| DeepMerge.MergeList | src/fastapi_exts/_utils.py:71-94 | a source longer than the target fails (IndexError at line 76); on success the length is kept, the tail beyond the source is untouched, each position holds its entry merge, a dict at a position is merged by the top-level rules, two tuples concatenate, a falsy non-list item takes the source item and a truthy str/int/bool item, or one of another type, is kept (`v or ov`) |
| DeepMerge.MergeMapFromEmpty | src/fastapi_exts/_utils.py:46-68 | the dict loop over an empty target yields the source, at either dict level |
| DeepMerge.EntryRules | src/fastapi_exts/_utils.py:50-94 | at every level, an entry that is not a list below the top level follows `v or ov` (a falsy target takes the source, a truthy scalar or other-typed target is kept) and two tuples concatenate; a falsy dict target takes the source dict whole |
| DeepMerge.EntryIntoMissing | src/fastapi_exts/_utils.py:51-68 | a source value merged into an absent key (read as None) arrives unchanged |
| DeepMerge.MergeMapDisjoint | src/fastapi_exts/_utils.py:46-68 | over disjoint keys the dict loop is the plain union of the two dicts |
| DeepMerge.MergeDisjoint | src/fastapi_exts/_utils.py:103-123 | with disjoint keys both `merge` and `_merge_dict` return the plain union |
| DeepMerge.MergeIntoEmpty | src/fastapi_exts/_utils.py:103-123 | merging into an empty dict copies the source |
| DeepMerge.MergeEmptySource | src/fastapi_exts/_utils.py:104 | merging an empty source changes nothing |
| DeepMerge.MergeMapOneKey | src/fastapi_exts/_utils.py:46-68 | merging one key into a dict holding only that key is that key's entry merge, success or failure |
| DeepMerge.ExampleScalars | src/fastapi_exts/_utils.py:122-123 | `{"a": 0}` merged with `{"a": 5}` gives 5; a truthy string target `"x"` is kept |
| DeepMerge.ExampleLists | src/fastapi_exts/_utils.py:55-119 | `[1, 0]` and `[5, 7]` concatenate at the top level but merge to `[1, 7]` inside `_merge_dict` |
| DeepMerge.ExampleIndexError | src/fastapi_exts/_utils.py:72-77 | a nested source list longer than the target list, including an empty target list, raises IndexError |
| DeepMerge.ExampleDictInList | src/fastapi_exts/_utils.py:79-80 | a dict inside a list goes back through `merge`, so the lists inside it concatenate |
| DeepMerge.ExampleDictInDict | src/fastapi_exts/_utils.py:53-56 | the same dicts one level down in `_merge_dict` merge their lists position by position |
| Paths.LeadingEndStops | src/fastapi_exts/contrib/path.py:17-20 | the greedy leading scan stops only where no separator or prefix token matches |
| Paths.LeadingEndTokens | src/fastapi_exts/contrib/path.py:17-20 | everything the leading scan skips is a run of separator and prefix tokens |
| Paths.TrailingStartRun | src/fastapi_exts/contrib/path.py:18-20 | the trailing match covers a whole final run of separators and no less |
| Paths.ReplaceShape | src/fastapi_exts/contrib/path.py:27-31 | `_replace` keeps one contiguous slice of its input, preceded only by separator/prefix tokens and followed only by separators, so interior text and doubled separators stay; nothing in the result would be stripped again |
| Paths.ReplaceClean | src/fastapi_exts/contrib/path.py:27-31 | `_replace` leaves a string unchanged exactly when it has no leading token and no trailing separator |
| Paths.ReplaceIdempotent | src/fastapi_exts/contrib/path.py:27-31 | stripping twice strips nothing more |
| Paths.Replace | src/fastapi_exts/contrib/path.py:27-31 | `_replace` never lengthens its input and returns text it would leave alone; `ReplaceShape`, `ReplaceClean` and `ReplaceIdempotent` pin down which slice it keeps |
| Paths.New | src/fastapi_exts/contrib/path.py:42-52 | a constructed path is the separator (when the flag is set), then the prefix and a separator (when the prefix is non-empty), then the stripped input, which `_replace` would leave alone |
| Paths.NewIdempotent | src/fastapi_exts/contrib/path.py:42-52 | `Path(Path(s)) == Path(s)`, because stripping a built path recovers the stripped input |
| Paths.Div | src/fastapi_exts/contrib/path.py:54-63 | `self / other` is again a path: the frame followed by text `_replace` would leave alone; `DivOfNew`, `DivEmpty` and `DivChain` give its value |
| Paths.DivOfNew | src/fastapi_exts/contrib/path.py:54-63 | `/` on a built path gives the frame once, then the two stripped operands joined by one separator; the prefix is never repeated |
| Paths.DivEmpty | src/fastapi_exts/contrib/path.py:54-63 | `p / "" == p` for every built path `p` |
| Paths.DivChain | src/fastapi_exts/contrib/path.py:54-63 | two plain segments added to a built path give the frame and the three texts joined by the separator |
| Paths.ParentOfNew | src/fastapi_exts/contrib/path.py:65-69 | the parent of a built path drops the text after the last separator of its stripped text and rebuilds the rest; a path of one segment or none has the bare frame as its parent |
| Paths.Parent | src/fastapi_exts/contrib/path.py:65-69 | `parent` is again a path: the frame followed by text `_replace` would leave alone; `ParentOfNew`, `ParentUndoesDiv` and `ParentOfRoot` give its value |
| Paths.ParentUndoesDiv | src/fastapi_exts/contrib/path.py:54-69 | `(p / b).parent == p` for a built path `p` and a plain segment `b` without a separator |
| Paths.ParentOfRoot | src/fastapi_exts/contrib/path.py:65-69 | the parent of `"/"` is `"/"` |
| Paths.JoinSplit | src/fastapi_exts/contrib/path.py:68 | joining `s.split(c)` with `c` gives back `s` |
| Paths.JoinDropLast | src/fastapi_exts/contrib/path.py:68 | joining all but the last part of `s.split(c)` gives the text before the last `c`, or the empty string without one |
| Paths.SplitCount | src/fastapi_exts/contrib/path.py:68 | `s.split(c)` has one part exactly when `c` does not occur |
| Paths.ExampleChain | tests/contrib/test_path.py:4-31 | `P("123") / "123" / 123` is the frame and `123`, `123`, `123` joined by the separator, for the four configurations of the tests |
| Paths.PathExamples | tests/contrib/test_path.py:4-31 | the four results `/123/123/123`, `123.123.123`, `/abc/123/123/123` and `abc.123.123.123` |
| Paths.ExampleNoArgument | src/fastapi_exts/contrib/path.py:42-52 | `Path()` stringifies the default `...` and is `/Ellipsis` |
| Paths.SeparatorInPrefixRepeats | src/fastapi_exts/contrib/path.py:17-18 | with the prefix `/api`, `Path("x")` is `//api/x` and rebuilding it gives `//api/api/x` |
| Responses.InfoTable | src/fastapi_exts/contrib/responses.py:44-63 | the info table maps exactly the info statuses: each to the union of every schema given for it, or to None when none is given, whatever the order of the classes |
| Responses.InfoTableOrder | src/fastapi_exts/contrib/responses.py:44-63 | the info table depends only on which info classes are given, not on their order or repetition |
| Responses.MergeResponses | src/fastapi_exts/contrib/responses.py:27-41 | fails exactly when a model entry meets a None entry of the same status (`None.get`, line 35); otherwise it yields the key union, copies source-only statuses, keeps a None entry None, and widens a model entry by the source's models |
| Responses.BaseStep | src/fastapi_exts/contrib/responses.py:82-96 | a bare int writes None, a tuple writes its model or None, a dict writes each model and a `None` key; every other entry is untouched |
| Responses.Infos | src/fastapi_exts/contrib/responses.py:92-93 | the info classes collected are exactly those among the arguments |
| Responses.BaseTableKeys | src/fastapi_exts/contrib/responses.py:82-96 | the first table holds exactly the keys the non-info arguments write |
| Responses.BaseTableLastWrite | src/fastapi_exts/contrib/responses.py:82-96 | a later int or tuple for the same status overwrites an earlier one: each key holds its last write |
| Responses.BuildResponses | src/fastapi_exts/contrib/responses.py:78-99 | a successful result names exactly the statuses of all arguments, plus the `None` key of a dict argument; `build_responses` fails exactly when the last non-info argument for a status wrote a `{"model": …}` entry (a tuple with a truthy model, or any dict entry, even a None one) and the info classes for that status all lack a schema |
| Responses.ExampleBuild | tests/contrib/test_responses.py:18-29 | the test's table: 200 and 401 map to the model, 201, 202, 400 and 500 to None |
| Responses.ExampleCrash | src/fastapi_exts/contrib/responses.py:32-35 | a tuple model with a schema-less info class of the same status raises |
| Responses.ExampleDictArg | src/fastapi_exts/contrib/responses.py:87-96 | a dict argument maps its status to the model and leaves a spurious `None` key mapping to None |
| Pagination.MakeParams | src/fastapi_exts/contrib/pagination.py:24-35 | parameters default to 50 and 1 and are accepted exactly when `1 <= page_size <= 100` and `page_no >= 1`; a rejection names every field out of its bounds, both when both are |
| Pagination.FloorDiv | src/fastapi_exts/contrib/pagination.py:82 | Python's floor division, characterised by its bounds for either sign of the divisor |
| Pagination.CeilDiv | src/fastapi_exts/contrib/pagination.py:82 | `ceil(count / page_size)` on exact rationals: for a positive page size, the least `n` with `n * page_size >= count` |
| Pagination.ValidateAll | src/fastapi_exts/contrib/pagination.py:84 | succeeds exactly when every record validates, giving one result per record in order; otherwise reports the first rejected record and its error |
| Pagination.Page | src/fastapi_exts/contrib/pagination.py:14-85 | fails with ZeroDivision exactly for a zero page size; succeeds exactly when page size and number are positive, count is non-negative and every record validates; copies page size, number and count; the page count is the ceiling; results match the records one for one |
| Pagination.ApiPage | src/fastapi_exts/contrib/pagination.py:124-136 | an `APIPage` envelope: ZeroDivision exactly for a zero page size; success exactly under the same conditions as `page`; page size, number and count copied, the page count the ceiling, results one for one with the records |
| Pagination.ApiPageAgrees | src/fastapi_exts/contrib/pagination.py:124-136 | `api_page` fails exactly as `page` does and otherwise differs only in the envelope class |
| Pagination.PageCountExact | src/fastapi_exts/contrib/pagination.py:82 | for a positive page size the page count is `count / size`, rounded up, and 0 for no records |
| Pagination.DefaultParams | src/fastapi_exts/contrib/pagination.py:25-35 | the defaults are a page of 50 and page 1; 0 or 101 for the size, or 0 for the number, is rejected, and size 0 with number 0 names both fields |
| Pagination.ExamplePage | tests/contrib/test_pagination.py:18-28 | default parameters, a count of 10 and one record give page count 1 and that record's model |
| Pagination.PageNoUnchecked | src/fastapi_exts/contrib/pagination.py:79-85 | a page number beyond the page count is accepted |
| CorrelationLog.SliceTo | src/fastapi_exts/correlation_id/log.py:12 | `s[:n]` is a prefix of `s` of length `min(n, len)` for `n >= 0`, and drops the last `-n` characters for `n < 0` |
| CorrelationLog.TrimString | src/fastapi_exts/correlation_id/log.py:10-15 | None, the empty string or a missing length pass through unchanged; otherwise the result is a prefix of the input of the sliced length |
| CorrelationLog.Lookup | src/fastapi_exts/correlation_id/log.py:28 | `correlation_id_var.get(fallback)`: the variable's value when set in the current context, otherwise the fallback; `FilterUsesFallback` lifts this to the whole filter |
| CorrelationLog.Filter | src/fastapi_exts/correlation_id/log.py:27-31 | the filter always returns True and never changes the message; it sets the correlation id only when the context value, or the fallback if unset, is truthy, and then to exactly `_trim_string(value, uuid_length)`, a prefix of the value, the whole value when no length is set |
| CorrelationLog.TrimIdempotent | src/fastapi_exts/correlation_id/log.py:10-15 | cutting to a non-negative length twice is cutting once |
| CorrelationLog.TrimNegativeShrinks | src/fastapi_exts/correlation_id/log.py:12 | a negative length shortens a non-empty string, and shortens it again on a second pass |
| CorrelationLog.FilterUsesFallback | src/fastapi_exts/correlation_id/log.py:28 | an unset context variable behaves as if set to the fallback |
| CorrelationLog.ExampleTrim | src/fastapi_exts/correlation_id/log.py:10-31 | `"abcdef"` is cut to `"abcd"` by length 4 and by length -2; an unset variable takes the fallback |
| HttpErrors.GetCode | src/fastapi_exts/exceptions.py:49-51 | the code is the class's `code` when truthy, otherwise the class name; `ExampleClassAttributes` and `ExampleCodeError` show both branches |
| HttpErrors.NewCodeError | src/fastapi_exts/exceptions.py:72-86 | the body is exactly `code` and `message`; the message is the argument, else the class message, else "operation failed", so never empty; the headers are the argument when truthy, else the class's |
| HttpErrors.GetTitle | src/fastapi_exts/exceptions.py:129-131 | the title is the class's `title` when truthy, otherwise the class name; `ExampleClassAttributes` and `ExampleProblem` show both branches |
| HttpErrors.EncodeProblem | src/fastapi_exts/exceptions.py:115-126 | the problem body always has `title` and `status` and has `type`, `detail` and `instance` exactly when not None, with their values; no other member |
| HttpErrors.NewProblem | src/fastapi_exts/exceptions.py:106-127 | a raised problem carries the class's status, its title and status in the body, the optional members exactly when given, and the headers by the same fallback as a code error |
| HttpErrors.ProblemRoundTrip | src/fastapi_exts/exceptions.py:115-126 | a problem body reads back as the members it was built from |
| HttpErrors.ProblemDecodeEncode | src/fastapi_exts/exceptions.py:115-126 | a body with only problem members that reads back as some members is exactly their encoding |
| HttpErrors.Handle | src/fastapi_exts/exceptions.py:168-185 | status and headers come from the error; a status that allows a body gets the set fields of the error's model as the body, with the error's own `media_type` (`application/json` when it has none); otherwise there is no body and no media type |
| HttpErrors.MediaType | src/fastapi_exts/exceptions.py:178-184 | `getattr(exc, "media_type", None)` handed to the JSON response: a given media type is kept as is, and None gives the response class's `application/json`; `ExampleMediaTypes` shows a default and two overrides |
| HttpErrors.ProblemResponseReads | src/fastapi_exts/exceptions.py:168-185 | a client reads back from a problem response the class's type, title and status and the given detail and instance |
| HttpErrors.CodeResponseReads | src/fastapi_exts/exceptions.py:168-185 | a client reads back from a code-error response the class's code and the chosen message |
| HttpErrors.ExampleCodeError | tests/test_exceptions.py:12-27 | `raise HTTPCodeError` answers 400 with code "HTTPCodeError" and message "operation failed" |
| HttpErrors.ExampleProblem | tests/test_exceptions.py:30-45 | `raise HTTPProblem` answers 400 with title "HTTPProblem" and nothing but title and status in the body |
| HttpErrors.ExampleFallbacks | src/fastapi_exts/exceptions.py:78-86 | empty arguments fall through to the class values, and a status without a body drops it |
| HttpErrors.ExampleClassAttributes | src/fastapi_exts/exceptions.py:49-131 | a class that sets `code` answers with it rather than its name, and one that sets `title` likewise |
| HttpErrors.ExampleMediaTypes | src/fastapi_exts/exceptions.py:178-185 | a code error with no `media_type` answers `application/json`; a subclass of either kind that overrides `media_type` answers its own |
| LogRecord.RegisterFunction | src/fastapi_exts/decorators/log_record/interfaces.py:162-163 | stores the function under its name, or `fn.__name__` when the name is not truthy, replacing any earlier entry and touching no other key |
| LogRecord.FunctionKeysMeaning | src/fastapi_exts/decorators/log_record/interfaces.py:149-163 | a key is registered by the `functions` argument exactly when some entry stores under it |
| LogRecord.RegisterFunctions | src/fastapi_exts/decorators/log_record/interfaces.py:149-155 | registering a sequence adds exactly the entries' keys |
| LogRecord.RegisterFunctionsKeeps | src/fastapi_exts/decorators/log_record/interfaces.py:149-163 | a key no entry stores under keeps its function |
| LogRecord.RegisterFunctionsLastWins | src/fastapi_exts/decorators/log_record/interfaces.py:149-163 | each key holds the function registered last under it |
| LogRecord.RegisterOverwrites | src/fastapi_exts/decorators/log_record/interfaces.py:162-163 | registering the same key twice is the same as registering only the second function |
| LogRecord.AddDependency | src/fastapi_exts/decorators/log_record/interfaces.py:171-183 | a non-callable target fails the assertion; a name in use raises ValueError; either way the registry is unchanged; otherwise exactly the new name is added |
| LogRecord.DependencyKeysMeaning | src/fastapi_exts/decorators/log_record/interfaces.py:141-177 | a name is among the registered names exactly when some entry registers under it |
| LogRecord.AddDependencies | src/fastapi_exts/decorators/log_record/interfaces.py:141-147 | when every registration succeeds, every target is callable and exactly the entries' names are added |
| LogRecord.AddDependenciesSucceeds | src/fastapi_exts/decorators/log_record/interfaces.py:141-183 | the registrations all succeed exactly when every target is callable and every name is new, against the registry and among the entries |
| LogRecord.AddDependenciesKeeps | src/fastapi_exts/decorators/log_record/interfaces.py:141-183 | a successful registration keeps every name already taken |
| LogRecord.AddDependenciesRegisters | src/fastapi_exts/decorators/log_record/interfaces.py:141-183 | a successful registration stores every entry under its name |
| LogRecord.AddDependencyTwice | src/fastapi_exts/decorators/log_record/interfaces.py:179-183 | adding a second dependency under a used name raises ValueError and keeps the first |
| LogRecord.Init | src/fastapi_exts/decorators/log_record/interfaces.py:108-156 | construction succeeds exactly when all dependencies are callable with fresh names, and fails with the first registration error otherwise; templates default to `""`, handler lists are kept, and the registries hold exactly the given names |
| LogRecord.AddHandler | src/fastapi_exts/decorators/log_record/interfaces.py:185-186 | appends one handler at the end and changes nothing else |
| LogRecord.AddSuccessHandler | src/fastapi_exts/decorators/log_record/interfaces.py:188-189 | appends one success callback at the end and changes nothing else |
| LogRecord.AddFailureHandler | src/fastapi_exts/decorators/log_record/interfaces.py:191-192 | appends one failure callback at the end and changes nothing else |
| LogRecord.Befores | src/fastapi_exts/decorators/log_record/interfaces.py:525-527 | `_execute_before_handles` calls `before` once per handler, the `i`-th call the `i`-th handler's |
| LogRecord.BeforesAt | src/fastapi_exts/decorators/log_record/interfaces.py:525-527 | the `i`-th `before` call is the `i`-th handler's |
| LogRecord.NotifiesAt | src/fastapi_exts/decorators/log_record/interfaces.py:570-598 | the `i`-th callback call is the `i`-th callback's, with the detail |
| LogRecord.HookPairsAt | src/fastapi_exts/decorators/log_record/interfaces.py:573-602 | each handler's outcome hook is immediately followed by its `after` |
| LogRecord.Dispatch | src/fastapi_exts/decorators/log_record/interfaces.py:539-608 | the reserved keyword is popped and the other keywords pass through; the result is returned or the exception re-raised unchanged; a successful dependency call fires nothing but itself |
| LogRecord.DispatchOrder | src/fastapi_exts/decorators/log_record/interfaces.py:539-608 | the exact event order: the handlers' `before` (endpoints only), the call, then, when hooks fire, the callbacks in order and each handler's outcome hook followed by its `after` |
| LogRecord.RunsOnce | src/fastapi_exts/decorators/log_record/interfaces.py:547-552 | the wrapped function runs exactly once, and every `before` precedes it |
| LogRecord.HooksMatchOutcome | src/fastapi_exts/decorators/log_record/interfaces.py:554-604 | a successful call fires no failure hook and a failed one no success hook; every detail carries the outcome, the chosen template and the popped `extra` |
| LogRecord.DependencySuccessSilent | src/fastapi_exts/decorators/log_record/interfaces.py:551-606 | a successful dependency call fires no hook and returns its result |
| LogRecord.DependencyFailureNoBefore | src/fastapi_exts/decorators/log_record/interfaces.py:551-604 | a failing dependency re-raises after the failure callbacks and handler hooks, with no `before` |
| LogRecord.AddedHandlerRunsLast | src/fastapi_exts/decorators/log_record/interfaces.py:539-608 | a handler added last has the last `before` of an endpoint call and the last `after` |
| LogRecord.ExampleTemplates | src/fastapi_exts/decorators/log_record/interfaces.py:123-124 | an unset or empty template becomes `""`; a given `Template` is kept even if empty |
| LogRecord.ExampleDuplicateDependency | src/fastapi_exts/decorators/log_record/interfaces.py:141-183 | two list entries with the same `__name__` make construction fail with ValueError; a dict key renames one; a non-callable target fails the assertion |

## Left out

- Side effects on the arguments: the merges and `build_responses` are modelled as returning a new value. An exception therefore discards the partial mutation the Python code leaves behind (earlier keys or list positions already merged), and the aliasing between target and result is not modelled.
- DeepMerge.Entry: a non-empty `str` or `dict` fed as the source of a list merge no longer than the target list gives `Unmodelled`. Iterating a `str` yields new one-character strings and a dict's key order is not kept.
- DeepMerge.MergeMap: with several failing keys, `Unmodelled` is preferred over `IndexError`, since a `map` has no order to say which key Python reaches first.
- Floats in the merge: they have `__add__` and would be summed; the merged values are None, bools, ints, strings, lists, tuples and dicts.
- The list overload of `merge` (`_utils.py:98`): `source.items()` fails on a list.
- `update_signature`, `new_function` and the datetime helpers of `_utils.py`: reflection and timezone arithmetic.
- Paths: the separator is a single character, and `$` is read as the end of the string (Python's `$` also matches before a final newline).
- Paths: the laws other than `SeparatorInPrefixRepeats` assume `ValidConfig`, a prefix that does not contain the separator. Every `Path` subclass in the tests meets this.
- Paths: `str(object, encoding, errors)` on buffers; an operand is a string or an `int`.
- The `str`/`repr` of errors (`exceptions.py:88-92`), pydantic schema synthesis (`get_schema`, `create_model`) and the JSON response classes: library behaviour. The body is the set of fields the error's model was given.
- `is_body_allowed_for_status_code` is FastAPI's and is a parameter of `HttpErrors.Handle`.
- Pagination: pydantic validation of a record is a parameter. `ceil(count / page_size)` is exact integer ceiling division, while Python's float division diverges above 2^53. The camelCase aliases of `APIPage` and `APIPageParamsModel` are not modelled.
- CorrelationLog: the context variable is an input. The text of a `UUID` is its `str`, which is never empty.
- LogRecord: `str.format` and `string.Template` substitution inside `format_message`. Only the choice of template is modelled. A template that names a missing key raises inside `format_message` (`interfaces.py:554`, `interfaces.py:581`), before any hook, replacing the result or the original exception; that exception path is not modelled.
- LogRecord: the `context_factory` context manager and the `context` it yields.
- LogRecord: `_wrap_dependency`, `_log_record_deps` and `__call__`, which rewrite signatures for FastAPI.
- LogRecord: the asynchronous recorder.
- LogRecord: hooks are assumed not to raise. An exception inside a handler would cut the trace short.
- LogRecord: `decorators/log_record/utils.py` (`sync_execute`, `is_success`, `is_failure`) is not part of this model. The outcome of running the wrapped function is a parameter.
- Middlewares, context-variable modules, `manager.py`, `contrib/provider.py`, `contrib/dependencies.py` and `request_info/*`: I/O, randomness, timing and glue that only delegates to FastAPI.

=== FILE: correlation.dfy ===
/**
 The correlation-id log filter of `correlation_id/log.py`: it copies the
 current request's correlation id, cut to a configured length, onto every
 log record, and never drops a record.

 The context variable is an input: either unset in the current context, or
 set to a value. A value is represented by the text `str(value)` gives,
 None standing for Python `None`; a `UUID` always has non-empty text, so
 "truthy" is "present and non-empty" for every value the variable holds.
 */
module CorrelationLog {
  import opened Wrappers

  /** The state of `correlation_id_var` in the current context. */
  datatype ContextValue = Unset | Set(value: Option<string>)

  /** `CorrelationIdLogFilter(uuid_length, fallback)`. */
  datatype FilterConfig = FilterConfig(uuidLength: Option<int>, fallback: Option<string>)

  /** The parts of a `logging.LogRecord` the filter can touch. */
  datatype LogRecord = LogRecord(message: string, correlationId: Option<string>)

  /** `s[:n]` with Python's slice rules: a negative `n` counts from the end; both ends clamp. */
  function SliceTo(s: string, n: int): (r: string)
    ensures r <= s
    ensures n >= 0 ==> |r| == if n < |s| then n else |s|
    ensures n < 0 ==> |r| == if -n < |s| then |s| + n else 0
  {
    if n >= 0 then (if n < |s| then s[..n] else s)
    else (if -n < |s| then s[..|s| + n] else [])
  }

  /**
   `_trim_string(string, string_length)`: only a non-empty string with a
   length given is cut; `None`, `""` and a missing length pass through.
   */
  function TrimString(s: Option<string>, n: Option<int>): (r: Option<string>)
    ensures n.None? || s.None? || s == Some("") ==> r == s
    ensures s.Some? ==> r.Some? && r.value <= s.value
    ensures s.Some? && n.Some? && n.value >= 0 ==> |r.value| == if n.value < |s.value| then n.value else |s.value|
    ensures s.Some? && s.value != "" && n.Some? && n.value < 0 ==>
              |r.value| == if -n.value < |s.value| then |s.value| + n.value else 0
  {
    if n.Some? && s.Some? && s.value != "" then Some(SliceTo(s.value, n.value)) else s
  }

  /** `correlation_id_var.get(fallback)`: the value when set, else the fallback. */
  function Lookup(ctx: ContextValue, fallback: Option<string>): (r: Option<string>)
    ensures ctx.Set? ==> r == ctx.value
    ensures ctx.Unset? ==> r == fallback
  {
    if ctx.Set? then ctx.value else fallback
  }

  /** Python truthiness of the looked-up value. */
  predicate Truthy(v: Option<string>) {
    v.Some? && v.value != ""
  }

  /**
   `CorrelationIdLogFilter.filter(record)`: returns the verdict and the
   record as the filter leaves it. The verdict is always True; the record
   gains the trimmed id exactly when there is a truthy value to take it from.
   */
  function Filter(cfg: FilterConfig, ctx: ContextValue, rec: LogRecord): (r: (bool, LogRecord))
    ensures r.0
    ensures r.1.message == rec.message
    ensures !Truthy(Lookup(ctx, cfg.fallback)) ==> r.1 == rec
    ensures Truthy(Lookup(ctx, cfg.fallback)) ==>
              && r.1.correlationId.Some?
              && r.1.correlationId.value <= Lookup(ctx, cfg.fallback).value
              && (cfg.uuidLength.None? ==> r.1.correlationId == Lookup(ctx, cfg.fallback))
    ensures Truthy(Lookup(ctx, cfg.fallback)) ==>
              r.1 == rec.(correlationId := TrimString(Lookup(ctx, cfg.fallback), cfg.uuidLength))
  {
    var value := Lookup(ctx, cfg.fallback);
    if Truthy(value) then (true, rec.(correlationId := TrimString(value, cfg.uuidLength)))
    else (true, rec)
  }

  // ---------------------------------------------------------------------------
  // Laws
  // ---------------------------------------------------------------------------

  /** Cutting to a non-negative length twice is cutting once. */
  lemma TrimIdempotent(s: Option<string>, n: Option<int>)
    requires n.None? || n.value >= 0
    ensures TrimString(TrimString(s, n), n) == TrimString(s, n)
  {
    if n.Some? && s.Some? && s.value != "" {
      var t := SliceTo(s.value, n.value);
      assert t <= s.value;
      assert t == [] || SliceTo(t, n.value) == t;
    }
  }

  /** A negative length keeps cutting: a second pass shortens a non-empty result again. */
  lemma TrimNegativeShrinks(s: string, n: int)
    requires n < 0 && s != ""
    ensures var t := TrimString(Some(s), Some(n)).value;
            |t| < |s| && (t != "" ==> |TrimString(Some(t), Some(n)).value| < |t|)
  {
  }

  /** The filter is a function of the looked-up value: an unset variable behaves as if set to the fallback. */
  lemma FilterUsesFallback(cfg: FilterConfig, rec: LogRecord)
    ensures Filter(cfg, Unset, rec) == Filter(cfg, Set(cfg.fallback), rec)
  {
  }

  /** With no id anywhere, or an empty one, the record passes unchanged. */
  lemma ExampleNoId(rec: LogRecord)
    ensures Filter(FilterConfig(Some(8), None), Unset, rec) == (true, rec)
    ensures Filter(FilterConfig(Some(8), Some("fb")), Set(None), rec) == (true, rec)
    ensures Filter(FilterConfig(None, Some("fb")), Set(Some("")), rec) == (true, rec)
  {
  }

  /** A set id is cut to the configured length; an unset one falls back. */
  lemma ExampleTrim(rec: LogRecord)
    ensures Filter(FilterConfig(Some(4), None), Set(Some("abcdef")), rec).1.correlationId == Some("abcd")
    ensures Filter(FilterConfig(Some(-2), None), Set(Some("abcdef")), rec).1.correlationId == Some("abcd")
    ensures Filter(FilterConfig(None, Some("fb")), Unset, rec).1.correlationId == Some("fb")
  {
    assert "abcdef"[..4] == "abcd";
  }
}

=== FILE: errors.dfy ===
/**
 The HTTP errors of `exceptions.py`: an `HTTPCodeError` carries a
 `{code, message}` body, an `HTTPProblem` carries a problem-details body
 (RFC 9457, section 3.1: members `type`, `title`, `status`, `detail`,
 `instance`), and `ext_http_error_handler` turns either into a response.

 A subclass is described by its class-level attributes (its name and the
 `code`, `message`, `type`, `title`, `status` and `headers` it overrides).
 The body an error carries is the set of fields its pydantic model was
 given, which is what `model_dump(exclude_unset=True)` writes; the schema
 the model is built from (`get_schema`) is not modelled. Whether a status
 code allows a body is FastAPI's `is_body_allowed_for_status_code`, a
 parameter here.
 */
module HttpErrors {
  import opened Wrappers

  type Headers = map<string, string>

  /** The JSON values a body member can hold here. */
  datatype Json = JStr(text: string) | JInt(number: int)

  /** The fields that were set on an error's model, by name. */
  type Body = map<string, Json>

  /** `BaseHTTPError.status`: 400 Bad Request unless a subclass overrides it. */
  const DefaultStatus: int := 400
  /** The message of last resort in `HTTPCodeError.__init__`. */
  const DefaultMessage: string := "operation failed"
  /** `HTTPProblem.media_type`; `HTTPCodeError` sets none. */
  const ProblemMediaType: string := "application/problem+json"
  /** The media type of the JSON response class when the error names none. */
  const JsonMediaType: string := "application/json"

  /**
   An `HTTPCodeError` subclass: `__name__`, `status`, `code`, `message`,
   `headers` and `media_type` (None while no class in the chain sets it).
   */
  datatype CodeErrorClass = CodeErrorClass(
    name: string, status: int, code: Option<string>, message: Option<string>, headers: Option<Headers>,
    mediaType: Option<string>)

  /**
   An `HTTPProblem` subclass: `__name__`, `status`, `type`, `title`,
   `headers` and `media_type` (`HTTPProblem` itself sets the problem type).
   */
  datatype ProblemClass = ProblemClass(
    name: string, status: int, problemType: Option<string>, title: Option<string>, headers: Option<Headers>,
    mediaType: Option<string>)

  /** Which class an error instance belongs to; it decides the shape of the body. */
  datatype Kind = CodeKind | ProblemKind

  /**
   A raised error: its class's kind, status and `media_type`, its headers
   and the set fields of its model.
   */
  datatype HttpError = HttpError(kind: Kind, status: int, mediaType: Option<string>, headers: Option<Headers>, data: Body)

  /** What the handler answers: no body and no media type when the status allows no body. */
  datatype Response = Response(status: int, headers: Option<Headers>, body: Option<Body>, mediaType: Option<string>)

  /** Python truthiness of an optional string. */
  predicate TruthyText(s: Option<string>) {
    s.Some? && s.value != ""
  }

  /** Python truthiness of an optional header dict. */
  predicate TruthyHeaders(h: Option<Headers>) {
    h.Some? && h.value != map[]
  }

  /** Python `a or b` for an optional string and a fallback string. */
  function OrText(a: Option<string>, b: string): (r: string)
    ensures TruthyText(a) ==> r == a.value
    ensures !TruthyText(a) ==> r == b
  {
    if TruthyText(a) then a.value else b
  }

  /** Python `headers or default`. */
  function OrHeaders(h: Option<Headers>, default: Option<Headers>): (r: Option<Headers>)
    ensures TruthyHeaders(h) ==> r == h
    ensures !TruthyHeaders(h) ==> r == default
  {
    if TruthyHeaders(h) then h else default
  }

  // ---------------------------------------------------------------------------
  // `HTTPCodeError`
  // ---------------------------------------------------------------------------

  /** `HTTPCodeError.get_code()`: the class's `code` when truthy, otherwise the class name. */
  function GetCode(cls: CodeErrorClass): (r: string)
    ensures r == cls.name || Some(r) == cls.code
    ensures TruthyText(cls.code) ==> r == cls.code.value
    ensures r == cls.name <== !TruthyText(cls.code)
    ensures r != "" <== cls.name != ""
  {
    OrText(cls.code, cls.name)
  }

  /**
   `cls(message=message, headers=headers)`: the body holds exactly `code`
   and `message`; the message is the argument, else the class's message,
   else "operation failed", each taken only when truthy, so it is never
   empty; the headers are the argument when truthy, else the class's.
   */
  function NewCodeError(cls: CodeErrorClass, message: Option<string>, headers: Option<Headers>): (r: HttpError)
    ensures r.kind == CodeKind && r.status == cls.status && r.mediaType == cls.mediaType
    ensures r.data.Keys == {"code", "message"}
    ensures r.data["code"] == JStr(GetCode(cls))
    ensures r.data["message"].JStr? && r.data["message"].text != ""
    ensures TruthyText(message) ==> r.data["message"].text == message.value
    ensures !TruthyText(message) && TruthyText(cls.message) ==> r.data["message"].text == cls.message.value
    ensures !TruthyText(message) && !TruthyText(cls.message) ==> r.data["message"].text == DefaultMessage
    ensures TruthyHeaders(headers) ==> r.headers == headers
    ensures !TruthyHeaders(headers) ==> r.headers == cls.headers
  {
    var text := OrText(message, OrText(cls.message, DefaultMessage));
    HttpError(CodeKind, cls.status, cls.mediaType, OrHeaders(headers, cls.headers),
              map["code" := JStr(GetCode(cls)), "message" := JStr(text)])
  }

  /** Reads a `{code, message}` body back; anything else is not one. */
  function DecodeCode(b: Body): (r: Option<(string, string)>)
    ensures r.Some? ==> "code" in b && "message" in b && b["code"] == JStr(r.value.0) && b["message"] == JStr(r.value.1)
  {
    if "code" in b && "message" in b && b["code"].JStr? && b["message"].JStr? then
      Some((b["code"].text, b["message"].text))
    else None
  }

  // ---------------------------------------------------------------------------
  // `HTTPProblem`
  // ---------------------------------------------------------------------------

  /** `HTTPProblem.get_title()`: the class's `title` when truthy, otherwise the class name. */
  function GetTitle(cls: ProblemClass): (r: string)
    ensures r == cls.name || Some(r) == cls.title
    ensures TruthyText(cls.title) ==> r == cls.title.value
    ensures r == cls.name <== !TruthyText(cls.title)
    ensures r != "" <== cls.name != ""
  {
    OrText(cls.title, cls.name)
  }

  /** The members of a problem-details object; the optional ones are absent when None. */
  datatype ProblemMembers = ProblemMembers(
    problemType: Option<string>, title: string, status: int, detail: Option<string>, instance: Option<string>)

  /** The member names RFC 9457 defines. */
  const ProblemKeys: set<string> := {"type", "title", "status", "detail", "instance"}

  /** The keys an optional member contributes: its name when present. */
  function KeyIf(k: string, v: Option<string>): set<string> {
    if v.Some? then {k} else {}
  }

  /** Adds an optional member to a body when it is present. */
  function PutIf(b: Body, k: string, v: Option<string>): (r: Body)
    ensures r.Keys == b.Keys + KeyIf(k, v)
    ensures v.Some? ==> r[k] == JStr(v.value)
    ensures forall j | j in b && j != k :: r[j] == b[j]
    ensures v.None? ==> r == b
  {
    if v.Some? then b[k := JStr(v.value)] else b
  }

  /**
   The `kwds` dict `HTTPProblem.__init__` validates into its model: `title`
   and `status` always, then `type`, `detail` and `instance` each only when
   not None.
   */
  function EncodeProblem(m: ProblemMembers): (r: Body)
    ensures r.Keys == {"title", "status"} + KeyIf("type", m.problemType) + KeyIf("detail", m.detail) + KeyIf("instance", m.instance)
    ensures r.Keys <= ProblemKeys
    ensures r["title"] == JStr(m.title) && r["status"] == JInt(m.status)
    ensures m.problemType.Some? ==> r["type"] == JStr(m.problemType.value)
    ensures m.detail.Some? ==> r["detail"] == JStr(m.detail.value)
    ensures m.instance.Some? ==> r["instance"] == JStr(m.instance.value)
  {
    var base := map["title" := JStr(m.title), "status" := JInt(m.status)];
    PutIf(PutIf(PutIf(base, "type", m.problemType), "detail", m.detail), "instance", m.instance)
  }

  /** An optional string member: absent, a string, or (`None`) a value of the wrong type. */
  function OptionalMember(b: Body, k: string): (r: Option<Option<string>>)
    ensures r == Some(None) <==> k !in b
    ensures r.Some? && r.value.Some? <==> k in b && b[k].JStr?
    ensures r.Some? && r.value.Some? ==> b[k] == JStr(r.value.value)
  {
    if k !in b then Some(None)
    else if b[k].JStr? then Some(Some(b[k].text))
    else None
  }

  /** Reads a problem-details body back into its members; a missing or ill-typed member is not one. */
  function DecodeProblem(b: Body): Option<ProblemMembers> {
    var t := OptionalMember(b, "type");
    var d := OptionalMember(b, "detail");
    var i := OptionalMember(b, "instance");
    if "title" in b && b["title"].JStr? && "status" in b && b["status"].JInt? && t.Some? && d.Some? && i.Some? then
      Some(ProblemMembers(t.value, b["title"].text, b["status"].number, d.value, i.value))
    else None
  }

  /** The members a raised problem describes: the class's type, title and status, and the arguments. */
  function Members(cls: ProblemClass, detail: Option<string>, instance: Option<string>): ProblemMembers {
    ProblemMembers(cls.problemType, GetTitle(cls), cls.status, detail, instance)
  }

  /**
   `cls(detail=detail, instance=instance, headers=headers)`: the body always
   has `title` and `status`, and has `type`, `detail` or `instance` exactly
   when that value is not None; the headers follow the same rule as for a
   code error.
   */
  function NewProblem(cls: ProblemClass, detail: Option<string>, instance: Option<string>, headers: Option<Headers>)
    : (r: HttpError)
    ensures r.kind == ProblemKind && r.status == cls.status && r.mediaType == cls.mediaType
    ensures "title" in r.data && r.data["title"] == JStr(GetTitle(cls))
    ensures "status" in r.data && r.data["status"] == JInt(cls.status)
    ensures "type" in r.data <==> cls.problemType.Some?
    ensures "detail" in r.data <==> detail.Some?
    ensures "instance" in r.data <==> instance.Some?
    ensures r.data.Keys <= ProblemKeys
    ensures TruthyHeaders(headers) ==> r.headers == headers
    ensures !TruthyHeaders(headers) ==> r.headers == cls.headers
  {
    HttpError(ProblemKind, cls.status, cls.mediaType, OrHeaders(headers, cls.headers), EncodeProblem(Members(cls, detail, instance)))
  }

  // ---------------------------------------------------------------------------
  // `ext_http_error_handler`
  // ---------------------------------------------------------------------------

  /**
   The media type of `JSONResponse(..., media_type=m)`: the given one, even
   an empty string, and the class default `application/json` for None.
   */
  function MediaType(m: Option<string>): (r: string)
    ensures m.Some? ==> r == m.value
    ensures m.None? ==> r == JsonMediaType
  {
    m.GetOr(JsonMediaType)
  }

  /**
   `ext_http_error_handler(request, exc)`: status and headers always come
   from the error; a status that allows a body gets the set fields of the
   error's model as a JSON body, one that does not gets an empty response.
   */
  function Handle(e: HttpError, bodyAllowed: int -> bool): (r: Response)
    ensures r.status == e.status && r.headers == e.headers
    ensures r.body.Some? <==> bodyAllowed(e.status)
    ensures r.mediaType.Some? <==> bodyAllowed(e.status)
    ensures r.body.Some? ==> r.body.value == e.data
    ensures r.mediaType.Some? && e.mediaType.Some? ==> r.mediaType.value == e.mediaType.value
    ensures r.mediaType.Some? && e.mediaType.None? ==> r.mediaType.value == "application/json"
  {
    if !bodyAllowed(e.status) then Response(e.status, e.headers, None, None)
    else Response(e.status, e.headers, Some(e.data), Some(MediaType(e.mediaType)))
  }

  // ---------------------------------------------------------------------------
  // Laws
  // ---------------------------------------------------------------------------

  /** A problem body reads back as the members it was built from. */
  lemma ProblemRoundTrip(m: ProblemMembers)
    ensures DecodeProblem(EncodeProblem(m)) == Some(m)
  {
  }

  /** A body that reads back as problem members and has no other keys is exactly their encoding. */
  lemma ProblemDecodeEncode(b: Body, m: ProblemMembers)
    requires b.Keys <= ProblemKeys
    requires DecodeProblem(b) == Some(m)
    ensures EncodeProblem(m) == b
  {
    var e := EncodeProblem(m);
    assert e.Keys == b.Keys by {
      assert OptionalMember(b, "type") == Some(m.problemType);
      assert OptionalMember(b, "detail") == Some(m.detail);
      assert OptionalMember(b, "instance") == Some(m.instance);
    }
    forall k | k in b
      ensures e[k] == b[k]
    {
      assert k in ProblemKeys;
    }
  }

  /** What a client reads from a problem response is the class's type, title and status and the arguments. */
  lemma ProblemResponseReads(cls: ProblemClass, detail: Option<string>, instance: Option<string>,
                             headers: Option<Headers>, bodyAllowed: int -> bool)
    requires bodyAllowed(cls.status)
    ensures var r := Handle(NewProblem(cls, detail, instance, headers), bodyAllowed);
            && r.body.Some?
            && DecodeProblem(r.body.value) == Some(ProblemMembers(cls.problemType, GetTitle(cls), cls.status, detail, instance))
  {
    ProblemRoundTrip(Members(cls, detail, instance));
  }

  /** What a client reads from a code-error response is the class's code and the chosen message. */
  lemma CodeResponseReads(cls: CodeErrorClass, message: Option<string>, headers: Option<Headers>, bodyAllowed: int -> bool)
    requires bodyAllowed(cls.status)
    ensures var r := Handle(NewCodeError(cls, message, headers), bodyAllowed);
            && r.body.Some?
            && DecodeCode(r.body.value) == Some((GetCode(cls), OrText(message, OrText(cls.message, DefaultMessage))))
  {
  }

  /** `raise HTTPCodeError`: the body's code is the class name and the message the default one. */
  lemma ExampleCodeError(bodyAllowed: int -> bool)
    requires bodyAllowed(400)
    ensures var cls := CodeErrorClass("HTTPCodeError", DefaultStatus, None, None, None, None);
            var r := Handle(NewCodeError(cls, None, None), bodyAllowed);
            && r.status >= 400
            && r.body == Some(map["code" := JStr("HTTPCodeError"), "message" := JStr("operation failed")])
            && r.mediaType == Some("application/json")
            && r.headers.None?
  {
  }

  /** `raise HTTPProblem`: the body is exactly the class name as title and the status. */
  lemma ExampleProblem(bodyAllowed: int -> bool)
    requires bodyAllowed(400)
    ensures var cls := ProblemClass("HTTPProblem", DefaultStatus, None, None, None, Some(ProblemMediaType));
            var r := Handle(NewProblem(cls, None, None, None), bodyAllowed);
            && r.status >= 400
            && r.body == Some(map["title" := JStr("HTTPProblem"), "status" := JInt(400)])
            && r.mediaType == Some("application/problem+json")
  {
  }

  /** The fallback chains: an empty argument falls through, and a status without a body drops it. */
  lemma ExampleFallbacks(bodyAllowed: int -> bool)
    requires !bodyAllowed(204)
    ensures var cls := CodeErrorClass("NotFound", 404, Some(""), Some("missing"), Some(map["x" := "1"]), None);
            var e := NewCodeError(cls, Some(""), Some(map[]));
            && e.data["code"] == JStr("NotFound")
            && e.data["message"] == JStr("missing")
            && e.headers == Some(map["x" := "1"])
    ensures var cls := ProblemClass("Gone", 204, Some("about:blank"), Some("Gone away"), None, Some(ProblemMediaType));
            var r := Handle(NewProblem(cls, Some(""), None, None), bodyAllowed);
            && r == Response(204, None, None, None)
  {
  }

  /** A class that sets `code` or `title` answers with it instead of its name. */
  lemma ExampleClassAttributes(bodyAllowed: int -> bool)
    requires bodyAllowed(404)
    ensures var cls := CodeErrorClass("NotFound", 404, Some("E_NOT_FOUND"), None, None, None);
            var r := Handle(NewCodeError(cls, Some("no such user"), None), bodyAllowed);
            r.body == Some(map["code" := JStr("E_NOT_FOUND"), "message" := JStr("no such user")])
    ensures var cls := ProblemClass("NotFound", 404, None, Some("Not Found"), None, Some(ProblemMediaType));
            var r := Handle(NewProblem(cls, None, None, None), bodyAllowed);
            r.body == Some(map["title" := JStr("Not Found"), "status" := JInt(404)])
  {
  }

  /**
   The response carries the error class's own `media_type`: a code error
   that sets none answers `application/json`, and a subclass that overrides
   it, of either kind, answers its own.
   */
  lemma ExampleMediaTypes(bodyAllowed: int -> bool)
    requires bodyAllowed(400)
    ensures var cls := CodeErrorClass("Teapot", 400, None, None, None, Some("application/vnd.err+json"));
            Handle(NewCodeError(cls, None, None), bodyAllowed).mediaType == Some("application/vnd.err+json")
    ensures var cls := ProblemClass("Plain", 400, None, None, None, Some("application/json"));
            Handle(NewProblem(cls, None, None, None), bodyAllowed).mediaType == Some("application/json")
    ensures var cls := CodeErrorClass("HTTPCodeError", DefaultStatus, None, None, None, None);
            Handle(NewCodeError(cls, None, None), bodyAllowed).mediaType == Some("application/json")
  {
  }
}

=== FILE: logrecord.dfy ===
/**
 The synchronous log-record decorator of `decorators/log_record/interfaces.py`:
 its two name registries (utility functions and dependencies), its handler
 lists and message templates, and the order in which its hooks fire around
 one call of a wrapped endpoint or dependency.

 A call is described by its keyword arguments and by the outcome of running
 the wrapped function (`sync_execute`, which catches the exception into a
 failure summary); the hooks are recorded as an event trace. Handlers and
 callbacks are represented by their identities, and the detail they receive
 by whether the call succeeded, the message template chosen for it and the
 `extra` value popped from the arguments. Hooks are assumed not to raise.
 */
module LogRecord {
  import opened Wrappers

  /** `_AbstractLogRecord._log_record_deps_name`: the keyword that carries the recorder's own dependencies. */
  const ReservedName: string := "__log_record_dependencies"

  /** A utility function: its `__name__` and an identity telling apart functions that share a name. */
  datatype Fn = Fn(name: string, id: nat)

  /** What a `Depends(...)` wraps: something not callable (including None), or a function. */
  datatype Target = NotCallable | Function(fn: Fn)

  /** A `Depends(dependency, use_cache=...)`. */
  datatype Dependency = Dependency(target: Target, useCache: bool)

  /** One entry of a `functions`/`dependencies` argument: a dict entry has its key as name, a list item none. */
  datatype Named<X> = Named(name: Option<string>, item: X)

  /** What `add_dependency` raises: a failed `assert callable(...)`, or a name already in use. */
  datatype RegistryError = AssertionError | ValueError(name: string)

  /** A message template: a `str` used with `str.format`, or a `string.Template`. */
  datatype MessageTemplate = FormatString(text: string) | TemplateObject(source: string)

  /** Python `name or fallback` for an optional name. */
  function OrName(name: Option<string>, fallback: string): (r: string)
    ensures name.Some? && name.value != "" ==> r == name.value
    ensures name.None? || name.value == "" ==> r == fallback
  {
    if name.Some? && name.value != "" then name.value else fallback
  }

  // ---------------------------------------------------------------------------
  // Registries
  // ---------------------------------------------------------------------------

  /** The key `register_function(fn, name)` stores under: the name when truthy, else `fn.__name__`. */
  function FunctionKey(e: Named<Fn>): string {
    OrName(e.name, e.item.name)
  }

  /**
   `register_function(fn, name)`: stores the function under its key,
   silently replacing whatever was registered under that key before.
   */
  function RegisterFunction(fns: map<string, Fn>, e: Named<Fn>): (r: map<string, Fn>)
    ensures r.Keys == fns.Keys + {FunctionKey(e)}
    ensures r[FunctionKey(e)] == e.item
    ensures forall k | k in fns && k != FunctionKey(e) :: r[k] == fns[k]
  {
    fns[FunctionKey(e) := e.item]
  }

  /** The keys a sequence of `register_function` calls stores under. */
  function FunctionKeys(es: seq<Named<Fn>>): (r: set<string>)
    decreases |es|
    ensures forall i | 0 <= i < |es| :: FunctionKey(es[i]) in r
  {
    if es == [] then {}
    else
      assert forall i | 1 <= i < |es| :: es[i] == es[1..][i - 1];
      {FunctionKey(es[0])} + FunctionKeys(es[1..])
  }

  /** A key is among `FunctionKeys(es)` exactly when some entry stores under it. */
  lemma {:induction false} FunctionKeysMeaning(es: seq<Named<Fn>>, k: string)
    decreases |es|
    ensures k in FunctionKeys(es) <==> exists i | 0 <= i < |es| :: FunctionKey(es[i]) == k
  {
    if es != [] {
      FunctionKeysMeaning(es[1..], k);
      if exists i | 1 <= i < |es| :: FunctionKey(es[i]) == k {
        var i :| 1 <= i < |es| && FunctionKey(es[i]) == k;
        assert FunctionKey(es[1..][i - 1]) == k;
      }
      if exists i | 0 <= i < |es[1..]| :: FunctionKey(es[1..][i]) == k {
        var i :| 0 <= i < |es[1..]| && FunctionKey(es[1..][i]) == k;
        assert FunctionKey(es[i + 1]) == k;
      }
    }
  }

  /**
   The registrations of `__init__`'s `functions` argument, in order: every
   key ends up registered.
   */
  function RegisterFunctions(fns: map<string, Fn>, es: seq<Named<Fn>>): (r: map<string, Fn>)
    decreases |es|
    ensures r.Keys == fns.Keys + FunctionKeys(es)
  {
    if es == [] then fns else RegisterFunctions(RegisterFunction(fns, es[0]), es[1..])
  }

  /** A key no entry stores under keeps its function. */
  lemma {:induction false} RegisterFunctionsKeeps(fns: map<string, Fn>, es: seq<Named<Fn>>, k: string)
    requires k in fns && k !in FunctionKeys(es)
    decreases |es|
    ensures RegisterFunctions(fns, es)[k] == fns[k]
  {
    if es != [] {
      RegisterFunctionsKeeps(RegisterFunction(fns, es[0]), es[1..], k);
    }
  }

  /** Each key holds the last function registered under it. */
  lemma {:induction false} RegisterFunctionsLastWins(fns: map<string, Fn>, es: seq<Named<Fn>>, i: nat)
    requires i < |es|
    requires forall j | i < j < |es| :: FunctionKey(es[j]) != FunctionKey(es[i])
    decreases |es|
    ensures RegisterFunctions(fns, es)[FunctionKey(es[i])] == es[i].item
  {
    var next := RegisterFunction(fns, es[0]);
    var tail := es[1..];
    if i == 0 {
      forall j | 0 <= j < |tail|
        ensures FunctionKey(tail[j]) != FunctionKey(es[0])
      {
        assert tail[j] == es[j + 1];
      }
      FunctionKeysMeaning(tail, FunctionKey(es[0]));
      RegisterFunctionsKeeps(next, tail, FunctionKey(es[0]));
    } else {
      forall j | i - 1 < j < |tail|
        ensures FunctionKey(tail[j]) != FunctionKey(tail[i - 1])
      {
        assert tail[j] == es[j + 1];
      }
      RegisterFunctionsLastWins(next, tail, i - 1);
    }
  }

  /** The name `add_dependency(dep, name)` registers under: the name when truthy, else the function's `__name__`. */
  function DependencyKey(e: Named<Dependency>): string
    requires e.item.target.Function?
  {
    OrName(e.name, e.item.target.fn.name)
  }

  /**
   `add_dependency(dep, name)`: returns the registry afterwards and the
   error raised, if any. A target that is not callable fails the assertion,
   a name already in use raises ValueError; either way the registry is left
   as it was. Otherwise exactly the new name is added.
   */
  function AddDependency(deps: map<string, Dependency>, e: Named<Dependency>)
    : (r: (map<string, Dependency>, Option<RegistryError>))
    ensures r.1 == Some(AssertionError) <==> e.item.target.NotCallable?
    ensures e.item.target.Function? ==> (r.1 == Some(ValueError(DependencyKey(e))) <==> DependencyKey(e) in deps)
    ensures r.1.Some? ==> r.0 == deps
    ensures r.1.None? ==>
              && e.item.target.Function? && DependencyKey(e) !in deps
              && r.0.Keys == deps.Keys + {DependencyKey(e)}
              && r.0[DependencyKey(e)] == e.item
              && forall k | k in deps :: r.0[k] == deps[k]
  {
    if e.item.target.NotCallable? then (deps, Some(AssertionError))
    else
      var key := DependencyKey(e);
      if key in deps then (deps, Some(ValueError(key)))
      else (deps[key := e.item], None)
  }

  /** Every entry's target is a function (`callable(dependency.dependency)`). */
  predicate AllCallable(es: seq<Named<Dependency>>) {
    forall i | 0 <= i < |es| :: es[i].item.target.Function?
  }

  /** No two entries share a name, and none is already taken in `deps`. */
  predicate FreshNames(deps: map<string, Dependency>, es: seq<Named<Dependency>>)
    requires AllCallable(es)
  {
    && (forall i | 0 <= i < |es| :: DependencyKey(es[i]) !in deps)
    && (forall i, j | 0 <= i < j < |es| :: DependencyKey(es[i]) != DependencyKey(es[j]))
  }

  /** The names a sequence of `add_dependency` calls registers under. */
  function DependencyKeys(es: seq<Named<Dependency>>): (r: set<string>)
    requires AllCallable(es)
    decreases |es|
    ensures forall i | 0 <= i < |es| :: DependencyKey(es[i]) in r
  {
    if es == [] then {}
    else
      assert forall i | 1 <= i < |es| :: es[i] == es[1..][i - 1];
      {DependencyKey(es[0])} + DependencyKeys(es[1..])
  }

  /** A name is among `DependencyKeys(es)` exactly when some entry registers under it. */
  lemma {:induction false} DependencyKeysMeaning(es: seq<Named<Dependency>>, k: string)
    requires AllCallable(es)
    decreases |es|
    ensures k in DependencyKeys(es) <==> exists i | 0 <= i < |es| :: DependencyKey(es[i]) == k
  {
    if es != [] {
      DependencyKeysMeaning(es[1..], k);
      if exists i | 1 <= i < |es| :: DependencyKey(es[i]) == k {
        var i :| 1 <= i < |es| && DependencyKey(es[i]) == k;
        assert DependencyKey(es[1..][i - 1]) == k;
      }
      if exists i | 0 <= i < |es[1..]| :: DependencyKey(es[1..][i]) == k {
        var i :| 0 <= i < |es[1..]| && DependencyKey(es[1..][i]) == k;
        assert DependencyKey(es[i + 1]) == k;
      }
    }
  }

  /**
   The registrations of `__init__`'s `dependencies` argument, in order,
   stopping at the first error; when they all succeed, every entry's name
   is added.
   */
  function AddDependencies(deps: map<string, Dependency>, es: seq<Named<Dependency>>)
    : (r: (map<string, Dependency>, Option<RegistryError>))
    decreases |es|
    ensures r.1.None? ==> AllCallable(es) && r.0.Keys == deps.Keys + DependencyKeys(es)
  {
    if es == [] then (deps, None)
    else
      var step := AddDependency(deps, es[0]);
      if step.1.Some? then step
      else
        var r := AddDependencies(step.0, es[1..]);
        assert r.1.None? ==> forall i | 1 <= i < |es| :: es[i] == es[1..][i - 1];
        r
  }

  /** The names of `es` are fresh for `deps` exactly when the first is and the rest are fresh once it is added. */
  lemma FreshNamesCons(deps: map<string, Dependency>, es: seq<Named<Dependency>>)
    requires |es| > 0 && AllCallable(es) && DependencyKey(es[0]) !in deps
    ensures AllCallable(es[1..])
    ensures FreshNames(deps, es) <==> FreshNames(deps[DependencyKey(es[0]) := es[0].item], es[1..])
  {
    var tail := es[1..];
    assert forall i | 0 <= i < |tail| :: tail[i] == es[i + 1];
    if FreshNames(deps[DependencyKey(es[0]) := es[0].item], tail) {
      forall i, j | 0 <= i < j < |es|
        ensures DependencyKey(es[i]) != DependencyKey(es[j])
      {
        assert es[j] == tail[j - 1];
        if i > 0 {
          assert es[i] == tail[i - 1];
        }
      }
    }
  }

  /**
   The registrations all succeed exactly when every target is callable and
   every name is new, both against the registry and among the entries.
   */
  lemma {:induction false} AddDependenciesSucceeds(deps: map<string, Dependency>, es: seq<Named<Dependency>>)
    decreases |es|
    ensures AddDependencies(deps, es).1.None? <==> AllCallable(es) && FreshNames(deps, es)
  {
    if es != [] {
      var step := AddDependency(deps, es[0]);
      if step.1.None? {
        AddDependenciesSucceeds(step.0, es[1..]);
        assert AllCallable(es) <==> AllCallable(es[1..]) by {
          assert forall i | 1 <= i < |es| :: es[i] == es[1..][i - 1];
        }
        if AllCallable(es) {
          FreshNamesCons(deps, es);
        }
      }
    }
  }

  /** A successful registration keeps every name already taken. */
  lemma {:induction false} AddDependenciesKeeps(deps: map<string, Dependency>, es: seq<Named<Dependency>>, k: string)
    requires AddDependencies(deps, es).1.None? && k in deps
    decreases |es|
    ensures AddDependencies(deps, es).0[k] == deps[k]
  {
    if es != [] {
      AddDependenciesKeeps(AddDependency(deps, es[0]).0, es[1..], k);
    }
  }

  /** A successful registration stores every entry under its name. */
  lemma {:induction false} AddDependenciesRegisters(deps: map<string, Dependency>, es: seq<Named<Dependency>>, i: nat)
    requires AddDependencies(deps, es).1.None? && i < |es|
    decreases |es|
    ensures AddDependencies(deps, es).0[DependencyKey(es[i])] == es[i].item
  {
    var step := AddDependency(deps, es[0]);
    if i == 0 {
      AddDependenciesKeeps(step.0, es[1..], DependencyKey(es[0]));
    } else {
      AddDependenciesRegisters(step.0, es[1..], i - 1);
      assert es[1..][i - 1] == es[i];
    }
  }

  // ---------------------------------------------------------------------------
  // Construction
  // ---------------------------------------------------------------------------

  /** The recorder's state after `__init__`. */
  datatype State = State(
    success: MessageTemplate, failure: MessageTemplate,
    functions: map<string, Fn>, dependencies: map<string, Dependency>,
    handlers: seq<string>, successHandlers: seq<string>, failureHandlers: seq<string>)

  /** The arguments of `__init__`; an omitted list or dict is the empty sequence. */
  datatype Config = Config(
    success: Option<MessageTemplate>, failure: Option<MessageTemplate>,
    functions: seq<Named<Fn>>, dependencies: seq<Named<Dependency>>,
    handlers: seq<string>, successHandlers: seq<string>, failureHandlers: seq<string>)

  /** Python `template or ""`: an empty format string is falsy, a `Template` object never is. */
  function OrEmpty(t: Option<MessageTemplate>): (r: MessageTemplate)
    ensures t.Some? && t.value.TemplateObject? ==> r == t.value
    ensures t.Some? && t.value != FormatString("") ==> r == t.value
    ensures t.None? || t == Some(FormatString("")) ==> r == FormatString("")
  {
    if t.Some? && t.value != FormatString("") then t.value else FormatString("")
  }

  /**
   `__init__(...)`: unset templates become the empty format string, the
   handler lists are taken as given, dependencies are registered before
   functions, and a failed dependency registration aborts construction.
   */
  function Init(cfg: Config): (r: Result<State, RegistryError>)
    ensures r.Success? <==> AllCallable(cfg.dependencies) && FreshNames(map[], cfg.dependencies)
    ensures r.Failure? ==> AddDependencies(map[], cfg.dependencies).1 == Some(r.error)
    ensures r.Success? ==>
              && r.value.success == OrEmpty(cfg.success) && r.value.failure == OrEmpty(cfg.failure)
              && r.value.handlers == cfg.handlers
              && r.value.successHandlers == cfg.successHandlers
              && r.value.failureHandlers == cfg.failureHandlers
              && r.value.dependencies.Keys == DependencyKeys(cfg.dependencies)
              && r.value.functions.Keys == FunctionKeys(cfg.functions)
  {
    var deps := AddDependencies(map[], cfg.dependencies);
    AddDependenciesSucceeds(map[], cfg.dependencies);
    if deps.1.Some? then Failure(deps.1.value)
    else
      Success(State(OrEmpty(cfg.success), OrEmpty(cfg.failure),
                    RegisterFunctions(map[], cfg.functions), deps.0,
                    cfg.handlers, cfg.successHandlers, cfg.failureHandlers))
  }

  /** `add_handler(handler)`: appends to the handler list. */
  function AddHandler(s: State, h: string): (r: State)
    ensures |r.handlers| == |s.handlers| + 1 && r.handlers[..|s.handlers|] == s.handlers
    ensures r.handlers[|s.handlers|] == h
    ensures r.(handlers := s.handlers) == s
  {
    s.(handlers := s.handlers + [h])
  }

  /** `add_success_handler(handler)`: appends to the success callbacks. */
  function AddSuccessHandler(s: State, c: string): (r: State)
    ensures |r.successHandlers| == |s.successHandlers| + 1 && r.successHandlers[..|s.successHandlers|] == s.successHandlers
    ensures r.successHandlers[|s.successHandlers|] == c
    ensures r.(successHandlers := s.successHandlers) == s
  {
    s.(successHandlers := s.successHandlers + [c])
  }

  /** `add_failure_handler(handler)`: appends to the failure callbacks. */
  function AddFailureHandler(s: State, c: string): (r: State)
    ensures |r.failureHandlers| == |s.failureHandlers| + 1 && r.failureHandlers[..|s.failureHandlers|] == s.failureHandlers
    ensures r.failureHandlers[|s.failureHandlers|] == c
    ensures r.(failureHandlers := s.failureHandlers) == s
  {
    s.(failureHandlers := s.failureHandlers + [c])
  }

  // ---------------------------------------------------------------------------
  // One call of a wrapped function
  // ---------------------------------------------------------------------------

  /** What the caller sees: the wrapped function's result, or its exception re-raised. */
  datatype Outcome<R, X> = Returned(result: R) | Raised(error: X)

  /** What the hooks receive: success or failure, the message template, and the popped `extra`. */
  datatype Detail<V> = Detail(success: bool, message: MessageTemplate, extra: Option<V>)

  /** One observable step of a call. */
  datatype Event<V> =
    | Before(handler: string)
    | Run
    | Notify(callback: string, detail: Detail<V>)
    | OnSuccess(handler: string, detail: Detail<V>)
    | OnFailure(handler: string, detail: Detail<V>)
    | After(handler: string, detail: Detail<V>)

  /** A call as observed: the keyword arguments the function and hooks get, the trace, the outcome. */
  datatype Call<V, R, X> = Call(kwds: map<string, V>, events: seq<Event<V>>, outcome: Outcome<R, X>)

  /** The message template `format_message` fills in: the success one exactly for a successful call. */
  function ChooseTemplate(s: State, success: bool): (r: MessageTemplate)
    ensures success ==> r == s.success
    ensures !success ==> r == s.failure
  {
    if success then s.success else s.failure
  }

  /** `_execute_before_handles`: every handler's `before`, in list order. */
  function Befores<V>(hs: seq<string>): (r: seq<Event<V>>)
    decreases |hs|
    ensures |r| == |hs|
    ensures forall i | 0 <= i < |hs| :: r[i] == Before(hs[i])
  {
    if hs == [] then [] else [Before(hs[0])] + Befores(hs[1..])
  }

  /** Calling every success or failure callback with the detail, in list order. */
  function Notifies<V>(cs: seq<string>, d: Detail<V>): (r: seq<Event<V>>)
    decreases |cs|
    ensures |r| == |cs|
  {
    if cs == [] then [] else [Notify(cs[0], d)] + Notifies(cs[1..], d)
  }

  /** The handler's outcome hook: `success` or `failure` as the detail says. */
  function OutcomeHook<V>(h: string, d: Detail<V>): (r: Event<V>)
    ensures r.OnSuccess? <==> d.success
    ensures r.OnFailure? <==> !d.success
    ensures (r.OnSuccess? || r.OnFailure?) && r.handler == h && r.detail == d
  {
    if d.success then OnSuccess(h, d) else OnFailure(h, d)
  }

  /** A handler hook after the call that agrees with the detail: `success` only for a success, `failure` only for a failure. */
  ghost predicate HandlerHook<V>(e: Event<V>, d: Detail<V>) {
    && (e.OnSuccess? || e.OnFailure? || e.After?)
    && e.detail == d
    && (e.OnSuccess? ==> d.success)
    && (e.OnFailure? ==> !d.success)
  }

  /** For each handler in order, its outcome hook immediately followed by its `after`. */
  function HookPairs<V>(hs: seq<string>, d: Detail<V>): (r: seq<Event<V>>)
    decreases |hs|
    ensures |r| == 2 * |hs|
  {
    if hs == [] then [] else [OutcomeHook(hs[0], d), After(hs[0], d)] + HookPairs(hs[1..], d)
  }

  /** The callbacks that fire for a detail: success callbacks for a success, failure callbacks otherwise. */
  function Callbacks<V>(s: State, d: Detail<V>): seq<string> {
    if d.success then s.successHandlers else s.failureHandlers
  }

  /** Everything that runs after the call: the callbacks, then each handler's outcome hook and `after`. */
  function Hooks<V>(s: State, d: Detail<V>): seq<Event<V>> {
    Notifies(Callbacks(s, d), d) + HookPairs(s.handlers, d)
  }

  /** How many `before` hooks precede the call: one per handler for an endpoint, none for a dependency. */
  function BeforeCount(s: State, isEndpoint: bool): nat {
    if isEndpoint then |s.handlers| else 0
  }

  /** Whether the hooks after the call fire: for an endpoint always, for a dependency only when it fails. */
  predicate Fires<R, X>(isEndpoint: bool, run: Result<R, X>) {
    isEndpoint || run.Failure?
  }

  /** The `extra` of a call: the value of the reserved keyword, if given. */
  function Extra<V>(kwds: map<string, V>): Option<V> {
    if ReservedName in kwds then Some(kwds[ReservedName]) else None
  }

  /** The detail the hooks of a call receive. */
  function DetailOf<V, R, X>(s: State, kwds: map<string, V>, run: Result<R, X>): Detail<V> {
    Detail(run.Success?, ChooseTemplate(s, run.Success?), Extra(kwds))
  }

  /** The events of a call: the `before` hooks of an endpoint, the call itself, and the hooks after it when they fire. */
  function Trace<V>(s: State, isEndpoint: bool, fires: bool, d: Detail<V>): seq<Event<V>> {
    Befores(if isEndpoint then s.handlers else []) + [Run] + (if fires then Hooks(s, d) else [])
  }

  /**
   The `decorator` that `_log_function` returns, called with `kwds`, where
   `run` is what running the wrapped function gives. The reserved keyword
   is popped first, and the function and every hook see the rest; the
   result is returned or the exception re-raised unchanged.
   */
  function Dispatch<V, R, X>(s: State, isEndpoint: bool, kwds: map<string, V>, run: Result<R, X>)
    : (r: Call<V, R, X>)
    ensures ReservedName !in r.kwds
    ensures forall k | k in kwds && k != ReservedName :: k in r.kwds && r.kwds[k] == kwds[k]
    ensures r.kwds.Keys <= kwds.Keys
    ensures run.Success? ==> r.outcome == Returned(run.value)
    ensures run.Failure? ==> r.outcome == Raised(run.error)
    ensures !Fires(isEndpoint, run) ==> r.events == [Run]
  {
    Call(kwds - {ReservedName}, Trace(s, isEndpoint, Fires(isEndpoint, run), DetailOf(s, kwds, run)),
         if run.Success? then Returned(run.value) else Raised(run.error))
  }

  // ---------------------------------------------------------------------------
  // Laws
  // ---------------------------------------------------------------------------

  /** The `i`-th `before` is the `i`-th handler's. */
  lemma {:induction false} BeforesAt<V>(hs: seq<string>, i: nat)
    requires i < |hs|
    decreases |hs|
    ensures Befores<V>(hs)[i] == Before(hs[i])
  {
    if i > 0 {
      BeforesAt<V>(hs[1..], i - 1);
    }
  }

  /** The `i`-th notification is the `i`-th callback's, with the detail. */
  lemma {:induction false} NotifiesAt<V>(cs: seq<string>, d: Detail<V>, i: nat)
    requires i < |cs|
    decreases |cs|
    ensures Notifies(cs, d)[i] == Notify(cs[i], d)
  {
    if i > 0 {
      NotifiesAt(cs[1..], d, i - 1);
    }
  }

  /** The `k`-th handler's outcome hook sits at `2 * k`, its `after` right behind it. */
  lemma {:induction false} HookPairsAt<V>(hs: seq<string>, d: Detail<V>, k: nat)
    requires k < |hs|
    decreases |hs|
    ensures HookPairs(hs, d)[2 * k] == OutcomeHook(hs[k], d)
    ensures HookPairs(hs, d)[2 * k + 1] == After(hs[k], d)
  {
    if k > 0 {
      var rest := HookPairs(hs[1..], d);
      HookPairsAt(hs[1..], d, k - 1);
      assert HookPairs(hs, d)[2 * k] == rest[2 * (k - 1)];
      assert HookPairs(hs, d)[2 * k + 1] == rest[2 * (k - 1) + 1];
    }
  }

  /** Every handler hook agrees with the detail. */
  lemma HookPairsAgree<V>(hs: seq<string>, d: Detail<V>, i: nat)
    requires i < 2 * |hs|
    ensures HandlerHook(HookPairs(hs, d)[i], d)
  {
    var k := i / 2;
    HookPairsAt(hs, d, k);
    assert i == 2 * k || i == 2 * k + 1;
  }

  /** How long a trace is: the `before` hooks, the call, and the hooks after it when they fire. */
  lemma TraceLength<V>(s: State, isEndpoint: bool, fires: bool, d: Detail<V>)
    ensures |Trace(s, isEndpoint, fires, d)|
            == BeforeCount(s, isEndpoint) + 1 + if fires then |Callbacks(s, d)| + 2 * |s.handlers| else 0
  {
  }

  /** An endpoint's trace opens with the handlers' `before` hooks, in order. */
  lemma TraceBeforeAt<V>(s: State, fires: bool, d: Detail<V>, i: nat)
    requires i < |s.handlers|
    ensures Trace(s, true, fires, d)[i] == Before(s.handlers[i])
  {
    BeforesAt<V>(s.handlers, i);
  }

  /** The call itself follows the `before` hooks. */
  lemma TraceRunAt<V>(s: State, isEndpoint: bool, fires: bool, d: Detail<V>)
    ensures var t := Trace(s, isEndpoint, fires, d);
            |t| > BeforeCount(s, isEndpoint) && t[BeforeCount(s, isEndpoint)] == Run
  {
  }

  /** The callbacks come right after the call, in order. */
  lemma TraceNotifyAt<V>(s: State, isEndpoint: bool, d: Detail<V>, i: nat)
    requires i < |Callbacks(s, d)|
    ensures var t := Trace(s, isEndpoint, true, d);
            var j := BeforeCount(s, isEndpoint) + 1 + i;
            j < |t| && t[j] == Notify(Callbacks(s, d)[i], d)
  {
    var n := Notifies(Callbacks(s, d), d);
    var p := HookPairs(s.handlers, d);
    var b := Befores<V>(if isEndpoint then s.handlers else []);
    assert Trace(s, isEndpoint, true, d) == (b + [Run]) + (n + p);
    NotifiesAt(Callbacks(s, d), d, i);
  }

  /** The `k`-th handler's pair among the hooks after the call: behind all callbacks. */
  lemma HookPairAt<V>(s: State, d: Detail<V>, k: nat)
    requires k < |s.handlers|
    ensures var h := Hooks(s, d);
            var j := |Callbacks(s, d)| + 2 * k;
            j + 1 < |h| && h[j] == OutcomeHook(s.handlers[k], d) && h[j + 1] == After(s.handlers[k], d)
  {
    HookPairsAt(s.handlers, d, k);
  }

  /** The `k`-th handler's outcome hook and `after` sit side by side after the callbacks. */
  lemma TracePairAt<V>(s: State, isEndpoint: bool, d: Detail<V>, k: nat)
    requires k < |s.handlers|
    ensures var t := Trace(s, isEndpoint, true, d);
            var j := BeforeCount(s, isEndpoint) + 1 + |Callbacks(s, d)| + 2 * k;
            && j + 1 < |t|
            && t[j] == OutcomeHook(s.handlers[k], d)
            && t[j + 1] == After(s.handlers[k], d)
  {
    var t := Trace(s, isEndpoint, true, d);
    var b := BeforeCount(s, isEndpoint) + 1;
    var j := |Callbacks(s, d)| + 2 * k;
    TraceSplit(s, isEndpoint, d);
    HookPairAt(s, d, k);
    assert t[b + j] == t[b..][j];
    assert t[b + j + 1] == t[b..][j + 1];
  }

  /** A trace that fires hooks is the `before` hooks and the call, then the hooks. */
  lemma TraceSplit<V>(s: State, isEndpoint: bool, d: Detail<V>)
    ensures var t := Trace(s, isEndpoint, true, d);
            var b := BeforeCount(s, isEndpoint) + 1;
            |t| == b + |Hooks(s, d)| && t[b..] == Hooks(s, d)
  {
    var pre := Befores<V>(if isEndpoint then s.handlers else []) + [Run];
    assert Trace(s, isEndpoint, true, d) == pre + Hooks(s, d);
  }

  /** Every hook after the call is a callback or a handler hook, and agrees with the detail. */
  lemma HookAt<V>(s: State, d: Detail<V>, j: nat)
    requires j < |Hooks(s, d)|
    ensures var e := Hooks(s, d)[j];
            (e.Notify? && e.detail == d) || HandlerHook(e, d)
  {
    var n := Notifies(Callbacks(s, d), d);
    if j < |n| {
      NotifiesAt(Callbacks(s, d), d, j);
    } else {
      HookPairsAgree(s.handlers, d, j - |n|);
    }
  }

  /** Everything after the call is a callback or a handler hook, and agrees with the detail. */
  lemma TraceHookAt<V>(s: State, isEndpoint: bool, d: Detail<V>, i: nat)
    requires BeforeCount(s, isEndpoint) < i < |Trace(s, isEndpoint, true, d)|
    ensures var e := Trace(s, isEndpoint, true, d)[i];
            (e.Notify? && e.detail == d) || HandlerHook(e, d)
  {
    var t := Trace(s, isEndpoint, true, d);
    var b := BeforeCount(s, isEndpoint) + 1;
    TraceSplit(s, isEndpoint, d);
    assert t[i] == t[b..][i - b];
    HookAt(s, d, i - b);
  }

  /** The order of a trace, position by position. */
  lemma TraceOrder<V>(s: State, isEndpoint: bool, fires: bool, d: Detail<V>)
    ensures var t := Trace(s, isEndpoint, fires, d);
            var b := BeforeCount(s, isEndpoint);
            var cs := Callbacks(s, d);
            && (forall i | 0 <= i < b :: t[i] == Before(s.handlers[i]))
            && |t| > b && t[b] == Run
            && (!fires ==> |t| == b + 1)
            && (fires ==>
                  && |t| == b + 1 + |cs| + 2 * |s.handlers|
                  && (forall i | 0 <= i < |cs| :: t[b + 1 + i] == Notify(cs[i], d))
                  && (forall k | 0 <= k < |s.handlers| ::
                        && t[b + 1 + |cs| + 2 * k] == OutcomeHook(s.handlers[k], d)
                        && t[b + 1 + |cs| + 2 * k + 1] == After(s.handlers[k], d)))
  {
    TraceLength(s, isEndpoint, fires, d);
    TraceRunAt(s, isEndpoint, fires, d);
    TraceBefores(s, isEndpoint, fires, d);
    if fires {
      TraceNotifies(s, isEndpoint, d);
      TracePairs(s, isEndpoint, d);
    }
  }

  /**
   The exact order of a call's events: the `before` hooks in handler order
   (endpoints only), the call, then, when hooks fire, the callbacks in
   order and each handler's outcome hook immediately followed by its
   `after`, and nothing else.
   */
  lemma DispatchOrder<V, R, X>(s: State, isEndpoint: bool, kwds: map<string, V>, run: Result<R, X>)
    ensures var r := Dispatch(s, isEndpoint, kwds, run);
            var b := BeforeCount(s, isEndpoint);
            var d := DetailOf(s, kwds, run);
            var cs := Callbacks(s, d);
            && (forall i | 0 <= i < b :: r.events[i] == Before(s.handlers[i]))
            && |r.events| > b && r.events[b] == Run
            && (!Fires(isEndpoint, run) ==> |r.events| == b + 1)
            && (Fires(isEndpoint, run) ==>
                  && |r.events| == b + 1 + |cs| + 2 * |s.handlers|
                  && (forall i | 0 <= i < |cs| :: r.events[b + 1 + i] == Notify(cs[i], d))
                  && (forall k | 0 <= k < |s.handlers| ::
                        && r.events[b + 1 + |cs| + 2 * k] == OutcomeHook(s.handlers[k], d)
                        && r.events[b + 1 + |cs| + 2 * k + 1] == After(s.handlers[k], d)))
  {
    TraceOrder(s, isEndpoint, Fires(isEndpoint, run), DetailOf(s, kwds, run));
  }

  /** The `before` hooks of a trace, in handler order. */
  lemma TraceBefores<V>(s: State, isEndpoint: bool, fires: bool, d: Detail<V>)
    ensures var t := Trace(s, isEndpoint, fires, d);
            forall i | 0 <= i < BeforeCount(s, isEndpoint) :: t[i] == Before(s.handlers[i])
  {
    forall i | 0 <= i < BeforeCount(s, isEndpoint)
      ensures Trace(s, isEndpoint, fires, d)[i] == Before(s.handlers[i])
    {
      TraceBeforeAt(s, fires, d, i);
    }
  }

  /** The callbacks of a trace that fires hooks, in order. */
  lemma TraceNotifies<V>(s: State, isEndpoint: bool, d: Detail<V>)
    ensures var t := Trace(s, isEndpoint, true, d);
            var b := BeforeCount(s, isEndpoint);
            var cs := Callbacks(s, d);
            forall i | 0 <= i < |cs| :: b + 1 + i < |t| && t[b + 1 + i] == Notify(cs[i], d)
  {
    forall i | 0 <= i < |Callbacks(s, d)|
      ensures var t := Trace(s, isEndpoint, true, d);
              var j := BeforeCount(s, isEndpoint) + 1 + i;
              j < |t| && t[j] == Notify(Callbacks(s, d)[i], d)
    {
      TraceNotifyAt(s, isEndpoint, d, i);
    }
  }

  /** The handler pairs of a trace that fires hooks, in handler order. */
  lemma TracePairs<V>(s: State, isEndpoint: bool, d: Detail<V>)
    ensures var t := Trace(s, isEndpoint, true, d);
            var j := BeforeCount(s, isEndpoint) + 1 + |Callbacks(s, d)|;
            forall k | 0 <= k < |s.handlers| ::
              && j + 2 * k + 1 < |t|
              && t[j + 2 * k] == OutcomeHook(s.handlers[k], d)
              && t[j + 2 * k + 1] == After(s.handlers[k], d)
  {
    forall k | 0 <= k < |s.handlers|
      ensures var t := Trace(s, isEndpoint, true, d);
              var j := BeforeCount(s, isEndpoint) + 1 + |Callbacks(s, d)| + 2 * k;
              && j + 1 < |t|
              && t[j] == OutcomeHook(s.handlers[k], d)
              && t[j + 1] == After(s.handlers[k], d)
    {
      TracePairAt(s, isEndpoint, d, k);
    }
  }

  /** The wrapped function runs exactly once, and every `before` hook precedes it. */
  lemma RunsOnce<V, R, X>(s: State, isEndpoint: bool, kwds: map<string, V>, run: Result<R, X>)
    ensures var r := Dispatch(s, isEndpoint, kwds, run);
            forall i | 0 <= i < |r.events| :: (r.events[i] == Run <==> i == BeforeCount(s, isEndpoint))
    ensures var r := Dispatch(s, isEndpoint, kwds, run);
            forall i | 0 <= i < |r.events| && r.events[i].Before? :: i < BeforeCount(s, isEndpoint)
  {
    var fires := Fires(isEndpoint, run);
    var d := DetailOf(s, kwds, run);
    var t := Trace(s, isEndpoint, fires, d);
    var b := BeforeCount(s, isEndpoint);
    TraceRunAt(s, isEndpoint, fires, d);
    TraceLength(s, isEndpoint, fires, d);
    forall i | 0 <= i < |t|
      ensures (t[i] == Run <==> i == b) && (t[i].Before? ==> i < b)
    {
      if i < b {
        TraceBeforeAt(s, fires, d, i);
      } else if i > b {
        TraceHookAt(s, isEndpoint, d, i);
      }
    }
  }

  /** A successful call fires no failure hook and a failed one no success hook; every detail tells the outcome. */
  lemma HooksMatchOutcome<V, R, X>(s: State, isEndpoint: bool, kwds: map<string, V>, run: Result<R, X>)
    ensures var r := Dispatch(s, isEndpoint, kwds, run);
            forall i | 0 <= i < |r.events| ::
              && (run.Success? ==> !r.events[i].OnFailure?)
              && (run.Failure? ==> !r.events[i].OnSuccess?)
              && (r.events[i].Notify? || r.events[i].OnSuccess? || r.events[i].OnFailure? || r.events[i].After? ==>
                    r.events[i].detail == Detail(run.Success?, ChooseTemplate(s, run.Success?), Extra(kwds)))
  {
    var fires := Fires(isEndpoint, run);
    var d := DetailOf(s, kwds, run);
    var t := Trace(s, isEndpoint, fires, d);
    var b := BeforeCount(s, isEndpoint);
    TraceRunAt(s, isEndpoint, fires, d);
    TraceLength(s, isEndpoint, fires, d);
    forall i | 0 <= i < |t|
      ensures && (run.Success? ==> !t[i].OnFailure?)
              && (run.Failure? ==> !t[i].OnSuccess?)
              && (t[i].Notify? || t[i].OnSuccess? || t[i].OnFailure? || t[i].After? ==> t[i].detail == d)
    {
      if i < b {
        TraceBeforeAt(s, fires, d, i);
      } else if i > b {
        TraceHookAt(s, isEndpoint, d, i);
      }
    }
  }

  /** A successful dependency call fires nothing but itself and returns its result unchanged. */
  lemma DependencySuccessSilent<V, R, X>(s: State, kwds: map<string, V>, result: R)
    ensures Dispatch<V, R, X>(s, false, kwds, Success(result)) == Call(kwds - {ReservedName}, [Run], Returned(result))
  {
  }

  /** A failing dependency call fires the failure callbacks and hooks but no `before`. */
  lemma DependencyFailureNoBefore<V, R, X>(s: State, kwds: map<string, V>, error: X)
    ensures var r := Dispatch<V, R, X>(s, false, kwds, Failure(error));
            && r.outcome == Raised(error)
            && r.events[0] == Run
            && |r.events| == 1 + |s.failureHandlers| + 2 * |s.handlers|
  {
    DispatchOrder<V, R, X>(s, false, kwds, Failure(error));
  }

  /** A handler added last has the last `before` of an endpoint call and the last `after`. */
  lemma AddedHandlerRunsLast<V, R, X>(s: State, h: string, kwds: map<string, V>, run: Result<R, X>)
    ensures var r := Dispatch(AddHandler(s, h), true, kwds, run);
            && r.events[|s.handlers|] == Before(h)
            && r.events[|s.handlers| + 1] == Run
            && r.events[|r.events| - 1] == After(h, DetailOf(s, kwds, run))
  {
    var t := AddHandler(s, h);
    var d := DetailOf(t, kwds, run);
    assert d == DetailOf(s, kwds, run);
    var k := |s.handlers|;
    assert t.handlers[k] == h;
    TraceLength(t, true, true, d);
    TraceBeforeAt(t, true, d, k);
    TraceRunAt(t, true, true, d);
    TracePairAt(t, true, d, k);
  }

  /** Registering a key again replaces the function: only the last registration counts. */
  lemma RegisterOverwrites(fns: map<string, Fn>, f: Fn, g: Fn, name: Option<string>)
    requires FunctionKey(Named(name, f)) == FunctionKey(Named(name, g))
    ensures RegisterFunction(RegisterFunction(fns, Named(name, f)), Named(name, g)) == RegisterFunction(fns, Named(name, g))
  {
  }

  /** Adding a dependency under a name already used fails with ValueError and keeps the first one. */
  lemma AddDependencyTwice(deps: map<string, Dependency>, a: Named<Dependency>, b: Named<Dependency>)
    requires a.item.target.Function? && b.item.target.Function?
    requires DependencyKey(a) == DependencyKey(b)
    requires AddDependency(deps, a).1.None?
    ensures var first := AddDependency(deps, a).0;
            && AddDependency(first, b) == (first, Some(ValueError(DependencyKey(a))))
            && first[DependencyKey(a)] == a.item
  {
  }

  /** An unset or empty template is the empty format string; a given `Template` is kept even if empty. */
  lemma ExampleTemplates()
    ensures var s := Init(Config(None, Some(FormatString("")), [], [], [], [], []));
            s.Success? && ChooseTemplate(s.value, true) == FormatString("") && ChooseTemplate(s.value, false) == FormatString("")
    ensures var s := Init(Config(Some(TemplateObject("")), Some(FormatString("failed: {0}")), [], [], [], [], []));
            s.Success? && ChooseTemplate(s.value, true) == TemplateObject("") && ChooseTemplate(s.value, false) == FormatString("failed: {0}")
  {
  }

  /** Two list entries with the same `__name__` make construction fail; a dict key renames one. */
  lemma ExampleDuplicateDependency()
    ensures var d := Dependency(Function(Fn("user", 0)), true);
            var e := Dependency(Function(Fn("user", 1)), true);
            && Init(Config(None, None, [], [Named(None, d), Named(None, e)], [], [], [])) == Failure(ValueError("user"))
            && Init(Config(None, None, [], [Named(None, d), Named(Some("other"), e)], [], [], [])).Success?
    ensures Init(Config(None, None, [], [Named(None, Dependency(NotCallable, true))], [], [], [])) == Failure(AssertionError)
  {
    var d := Dependency(Function(Fn("user", 0)), true);
    var e := Dependency(Function(Fn("user", 1)), true);
    var es := [Named(None, d), Named(Some("other"), e)];
    assert DependencyKey(es[0]) == "user" && DependencyKey(es[1]) == "other";
    assert FreshNames(map[], es);
  }
}

=== FILE: merge.dfy ===
/**
 Deep merge of Python containers (`merge`, `_merge_dict`, `_merge_list` in
 `_utils.py`).

 The source mutates the target in place; here every merge is a pure function
 from (target, source) to the merged target or the exception the source
 raises. Python dicts become `map<string, Value>`: key order does not affect
 dict equality, and every key is merged independently of the others.

 The three Python functions share one loop shape and differ only in the
 per-entry rules, so one function `Entry` holds the rules, selected by the
 `Level` it runs at.
 */
module DeepMerge {
  import opened Wrappers

  /** A Python value as far as the merge can tell them apart. */
  datatype Value =
    | VNone
    | VBool(b: bool)
    | VInt(i: int)
    | VStr(s: string)
    | VList(items: seq<Value>)
    | VTuple(items: seq<Value>)
    | VDict(entries: map<string, Value>)

  /** `type(v)` as compared by `type(v) is type(ov)`. */
  datatype Kind = KNone | KBool | KInt | KStr | KList | KTuple | KDict

  /**
   IndexError is what Python raises for `target[oi] = ov` past the end of a
   list. Unmodelled marks the one input the model does not decide: a
   non-empty `str` or `dict` iterated as the source of a list merge that is
   no longer than the target list (the order of dict keys is not kept, and
   `str` iteration yields new one-character strings).
   */
  datatype MergeError = IndexError | Unmodelled

  /** Top = `merge`, Nested = `_merge_dict`, InList = `_merge_list`. */
  datatype Level = Top | Nested | InList

  function KindOf(v: Value): Kind {
    match v
    case VNone => KNone
    case VBool(_) => KBool
    case VInt(_) => KInt
    case VStr(_) => KStr
    case VList(_) => KList
    case VTuple(_) => KTuple
    case VDict(_) => KDict
  }

  /** Python truthiness: None, False, 0 and empty containers are falsy. */
  predicate Truthy(v: Value) {
    match v
    case VNone => false
    case VBool(b) => b
    case VInt(i) => i != 0
    case VStr(s) => |s| > 0
    case VList(xs) => |xs| > 0
    case VTuple(xs) => |xs| > 0
    case VDict(m) => |m| > 0
  }

  /** `str`, `int` and `bool` (an `int` subclass): never concatenated. */
  predicate IsScalar(v: Value) {
    v.VStr? || v.VInt? || v.VBool?
  }

  /** `target.get(ok)`: a missing key reads as None. */
  function Get(m: map<string, Value>, k: string): Value {
    if k in m then m[k] else VNone
  }

  /**
   `hasattr(v, "__add__") and not isinstance(v, str | int) and
   type(v) is type(ov)`: of the modelled types only lists and tuples
   qualify (dict and None have no `__add__`).
   */
  predicate Addable(v: Value, ov: Value) {
    (v.VList? && ov.VList?) || (v.VTuple? && ov.VTuple?)
  }

  /** `v or ov`. */
  function Or(v: Value, ov: Value): (r: Value)
    ensures Truthy(v) ==> r == v
    ensures !Truthy(v) ==> r == ov
  {
    if Truthy(v) then v else ov
  }

  /** Length of a `str` or `dict` iterated as a list-merge source. */
  function IterLength(ov: Value): nat
    requires ov.VStr? || ov.VDict?
  {
    if ov.VStr? then |ov.s| else |ov.entries|
  }

  /**
   The merge of one source value `ov` into the target value `v` found at
   the same key or position.
   */
  function Entry(level: Level, v: Value, ov: Value): (r: Result<Value, MergeError>)
    decreases ov, 1
    // merging into a falsy top-level value yields the source value
    ensures level == Top && !Truthy(v) ==> r == Success(ov)
    // a truthy value is never emptied and keeps its type
    ensures r.Success? && Truthy(v) ==> Truthy(r.value) && KindOf(r.value) == KindOf(v)
    // two dicts merge key by key; target-only keys survive
    ensures v.VDict? && ov.VDict? && r.Success? ==>
              && r.value.VDict?
              && r.value.entries.Keys == v.entries.Keys + ov.entries.Keys
              && forall k | k in v.entries && k !in ov.entries :: r.value.entries[k] == v.entries[k]
    // only a dict-into-dict or list-into-list merge can fail
    ensures r.Failure? ==> (v.VDict? && ov.VDict?) || (level != Top && v.VList?)
  {
    if v.VDict? && ov.VDict? then
      var inner := MergeMap(if level == InList then Top else Nested, v.entries, ov.entries);
      assert level == Top && !Truthy(v) ==> inner == Success(ov.entries) by {
        if level == Top && !Truthy(v) {
          assert v.entries == map[];
          MergeMapFromEmpty(Nested, ov.entries);
        }
      }
      if inner.Failure? then Failure(inner.error) else Success(VDict(inner.value))
    else if level != Top && v.VList? && (ov.VList? || ov.VTuple?) then
      var inner := MergeSeq(v.items, ov.items, 0);
      if inner.Failure? then Failure(inner.error) else Success(VList(inner.value))
    else if level != Top && v.VList? && (ov.VStr? || ov.VDict?) then
      if IterLength(ov) == 0 then Success(v)
      else if IterLength(ov) > |v.items| then Failure(IndexError)
      else Failure(Unmodelled)
    else if Addable(v, ov) then
      assert !Truthy(v) ==> v.items + ov.items == ov.items;
      if v.VList? then Success(VList(v.items + ov.items)) else Success(VTuple(v.items + ov.items))
    else
      Success(Or(v, ov))
  }

  /**
   The loop over `source.items()` shared by `merge` (Top) and `_merge_dict`
   (Nested). With several failing keys Python raises the first in key order;
   the model reports Unmodelled if any key is undecided, IndexError otherwise.
   */
  function MergeMap(level: Level, t: map<string, Value>, s: map<string, Value>): (r: Result<map<string, Value>, MergeError>)
    requires level != InList
    decreases VDict(s), 0, 0
    ensures r.Success? <==> forall k | k in s :: Entry(level, Get(t, k), s[k]).Success?
    ensures r.Success? ==> r.value.Keys == t.Keys + s.Keys
    ensures r.Success? ==> forall k | k in t && k !in s :: r.value[k] == t[k]
    ensures r.Success? ==> forall k | k in s :: Entry(level, Get(t, k), s[k]) == Success(r.value[k])
    ensures r == Failure(Unmodelled) <==> exists k | k in s :: Entry(level, Get(t, k), s[k]) == Failure(Unmodelled)
  {
    if exists k | k in s :: Entry(level, Get(t, k), s[k]) == Failure(Unmodelled) then
      Failure(Unmodelled)
    else if exists k | k in s :: Entry(level, Get(t, k), s[k]).Failure? then
      Failure(IndexError)
    else
      Success(map k | k in t.Keys + s.Keys :: if k in s then Entry(level, Get(t, k), s[k]).value else t[k])
  }

  /**
   `_merge_list` from position `i` on: `src` holds the items of the list or
   tuple being enumerated. A position past the end of the target raises IndexError.
   */
  function MergeSeq(t: seq<Value>, src: seq<Value>, i: nat): (r: Result<seq<Value>, MergeError>)
    requires i <= |t|
    decreases src, 0, |src| - i
    ensures r.Success? <==>
              && |src| <= |t|
              && forall j | i <= j < |src| :: Entry(InList, t[j], src[j]).Success?
    ensures r.Success? ==> |r.value| == |t|
    ensures r.Success? ==> forall j | 0 <= j < |t| && !(i <= j < |src|) :: r.value[j] == t[j]
    ensures r.Success? ==> forall j | i <= j < |src| :: Entry(InList, t[j], src[j]) == Success(r.value[j])
    ensures r == Failure(Unmodelled) ==>
              exists j | i <= j < |src| && j < |t| :: Entry(InList, t[j], src[j]) == Failure(Unmodelled)
  {
    if i >= |src| then Success(t)
    else if i >= |t| then Failure(IndexError)
    else
      var e := Entry(InList, t[i], src[i]);
      if e.Failure? then Failure(e.error)
      else MergeSeq(t[i := e.value], src, i + 1)
  }

  /**
   The rules for one entry that is not a list below the top level: a falsy
   target takes the source value; a truthy str/int/bool target, or one of
   another type than the source, is kept; two tuples (and, at the top
   level, two lists) concatenate.
   */
  predicate EntryRulesHold(level: Level, v: Value, ov: Value) {
    && (!Truthy(v) && (level == Top || !v.VList?) ==> Entry(level, v, ov) == Success(ov))
    && (Truthy(v) && (level == Top || !v.VList?) && (IsScalar(v) || KindOf(v) != KindOf(ov)) ==>
          Entry(level, v, ov) == Success(v))
    && (Addable(v, ov) && (level == Top || v.VTuple?) ==>
          Entry(level, v, ov) == Success(if v.VList? then VList(v.items + ov.items) else VTuple(v.items + ov.items)))
  }

  /** The entry rules hold at every level; an empty target dict takes the source dict whole. */
  lemma EntryRules(level: Level, v: Value, ov: Value)
    ensures EntryRulesHold(level, v, ov)
  {
    if v.VDict? && ov.VDict? {
      if !Truthy(v) {
        assert v.entries == map[];
        MergeMapFromEmpty(if level == InList then Top else Nested, ov.entries);
        assert Entry(level, v, ov) == Success(VDict(ov.entries));
      }
    } else if Addable(v, ov) && (level == Top || v.VTuple?) {
      assert !Truthy(v) ==> v.items + ov.items == ov.items;
    }
  }

  /** The entry rules at every key of a dict merge. */
  lemma EntryRulesAtKeys(level: Level, t: map<string, Value>, s: map<string, Value>)
    ensures forall k | k in s :: EntryRulesHold(level, Get(t, k), s[k])
  {
    forall k | k in s ensures EntryRulesHold(level, Get(t, k), s[k]) {
      EntryRules(level, Get(t, k), s[k]);
    }
  }

  /** The entry rules at every position a list merge visits. */
  lemma EntryRulesAtPositions(t: seq<Value>, s: seq<Value>)
    ensures forall j | 0 <= j < |s| && j < |t| :: EntryRulesHold(InList, t[j], s[j])
  {
    forall j | 0 <= j < |s| && j < |t| ensures EntryRulesHold(InList, t[j], s[j]) {
      EntryRules(InList, t[j], s[j]);
    }
  }

  /** `merge(target, source)`: the top-level rules. */
  function Merge(t: map<string, Value>, s: map<string, Value>): (r: Result<map<string, Value>, MergeError>)
    // key union; keys only in the target are untouched
    ensures r.Success? ==> r.value.Keys == t.Keys + s.Keys
    ensures r.Success? ==> forall k | k in t && k !in s :: r.value[k] == t[k]
    // an absent or falsy target value takes the source value
    ensures r.Success? ==> forall k | k in s && !Truthy(Get(t, k)) :: r.value[k] == s[k]
    // a truthy str/int/bool target, or one of another type than the source, wins
    ensures r.Success? ==> forall k | k in s && k in t && Truthy(t[k]) && (IsScalar(t[k]) || KindOf(t[k]) != KindOf(s[k])) ::
              r.value[k] == t[k]
    // two lists (or two tuples) concatenate in order
    ensures r.Success? ==> forall k | k in s && k in t && Addable(t[k], s[k]) ::
              r.value[k] == (if t[k].VList? then VList(t[k].items + s[k].items) else VTuple(t[k].items + s[k].items))
    // two dicts are merged by `_merge_dict`, not replaced
    ensures r.Success? ==> forall k | k in s && k in t && t[k].VDict? && s[k].VDict? ::
              r.value[k].VDict? && MergeDict(t[k].entries, s[k].entries) == Success(r.value[k].entries)
    // the top level only fails inside a nested dict merge
    ensures r.Success? <==> forall k | k in s && k in t && t[k].VDict? && s[k].VDict? ::
              MergeDict(t[k].entries, s[k].entries).Success?
  {
    MergeMap(Top, t, s)
  }

  /** `_merge_dict(target, source)`: the rules for dicts below the top level. */
  function MergeDict(t: map<string, Value>, s: map<string, Value>): (r: Result<map<string, Value>, MergeError>)
    ensures r.Success? ==> r.value.Keys == t.Keys + s.Keys
    ensures r.Success? ==> forall k | k in t && k !in s :: r.value[k] == t[k]
    ensures r.Success? ==> forall k | k in s && k !in t :: r.value[k] == s[k]
    // a target list is merged position by position with a list or tuple source
    ensures r.Success? ==> forall k | k in s && k in t && t[k].VList? && (s[k].VList? || s[k].VTuple?) ::
              r.value[k].VList? && MergeList(t[k].items, s[k].items) == Success(r.value[k].items)
    // two dicts are merged recursively; target-only nested keys survive
    ensures r.Success? ==> forall k | k in s && k in t && t[k].VDict? && s[k].VDict? ::
              && r.value[k].VDict?
              && r.value[k].entries.Keys == t[k].entries.Keys + s[k].entries.Keys
              && forall j | j in t[k].entries && j !in s[k].entries :: r.value[k].entries[j] == t[k].entries[j]
    // an absent or falsy target value other than a list takes the source value
    ensures r.Success? ==> forall k | k in s && !Truthy(Get(t, k)) && !Get(t, k).VList? :: r.value[k] == s[k]
    // a truthy str/int/bool target, or one of another type, is kept
    ensures r.Success? ==> forall k | k in s && k in t && Truthy(t[k]) && !t[k].VList? && (IsScalar(t[k]) || KindOf(t[k]) != KindOf(s[k])) ::
              r.value[k] == t[k]
    // two tuples concatenate in order
    ensures r.Success? ==> forall k | k in s && k in t && t[k].VTuple? && s[k].VTuple? ::
              r.value[k] == VTuple(t[k].items + s[k].items)
    // a list source longer than the target list makes the whole call fail
    ensures (exists k | k in s && k in t :: t[k].VList? && (s[k].VList? || s[k].VTuple?) && |s[k].items| > |t[k].items|) ==>
              r.Failure?
    // and only a nested dict merge or a list merge can fail
    ensures r.Failure? ==> exists k | k in s && k in t :: (t[k].VDict? && s[k].VDict?) || t[k].VList?
  {
    EntryRulesAtKeys(Nested, t, s);
    MergeMap(Nested, t, s)
  }

  /** `_merge_list(target, source)` for a list or tuple source. */
  function MergeList(t: seq<Value>, s: seq<Value>): (r: Result<seq<Value>, MergeError>)
    // the target list never grows: an extra source item raises IndexError
    ensures |s| > |t| ==> r.Failure?
    ensures r == Failure(Unmodelled) ==> exists j | 0 <= j < |s| && j < |t| :: Entry(InList, t[j], s[j]) == Failure(Unmodelled)
    ensures r.Success? ==> |r.value| == |t|
    ensures r.Success? ==> forall j | |s| <= j < |t| :: r.value[j] == t[j]
    // position by position; a dict in a list goes back through the top-level rules
    ensures r.Success? ==> forall j | 0 <= j < |s| :: Entry(InList, t[j], s[j]) == Success(r.value[j])
    ensures r.Success? ==> forall j | 0 <= j < |s| && t[j].VDict? && s[j].VDict? ::
              r.value[j].VDict? && MergeMap(Top, t[j].entries, s[j].entries) == Success(r.value[j].entries)
    // otherwise a falsy target takes the source item, a truthy scalar or other-typed one is kept,
    // and two tuples concatenate
    ensures r.Success? ==> forall j | 0 <= j < |s| && !Truthy(t[j]) && !t[j].VList? :: r.value[j] == s[j]
    ensures r.Success? ==> forall j | 0 <= j < |s| && Truthy(t[j]) && !t[j].VList? && (IsScalar(t[j]) || KindOf(t[j]) != KindOf(s[j])) ::
              r.value[j] == t[j]
    ensures r.Success? ==> forall j | 0 <= j < |s| && t[j].VTuple? && s[j].VTuple? ::
              r.value[j] == VTuple(t[j].items + s[j].items)
  {
    EntryRulesAtPositions(t, s);
    MergeSeq(t, s, 0)
  }

  // ---------------------------------------------------------------------------
  // Laws
  // ---------------------------------------------------------------------------

  /** Merging into an empty dict yields the source, at either dict level. */
  lemma MergeMapFromEmpty(level: Level, s: map<string, Value>)
    requires level != InList
    decreases VDict(s), 0, 1
    ensures MergeMap(level, map[], s) == Success(s)
  {
    var r := MergeMap(level, map[], s);
    forall k | k in s
      ensures Entry(level, Get(map[], k), s[k]) == Success(s[k])
    {
      assert Get(map[], k) == VNone;
    }
    assert r.Success?;
    assert r.value.Keys == s.Keys;
    assert forall k | k in s :: r.value[k] == s[k];
    assert r.value == s;
  }

  /** A source value merged into an absent key arrives unchanged, at either dict level. */
  lemma EntryIntoMissing(level: Level, ov: Value)
    requires level != InList
    ensures Entry(level, VNone, ov) == Success(ov)
  {
  }

  /** The shared loop over disjoint keys only adds the source's entries. */
  lemma MergeMapDisjoint(level: Level, t: map<string, Value>, s: map<string, Value>)
    requires level != InList && t.Keys !! s.Keys
    ensures MergeMap(level, t, s) == Success(t + s)
  {
    forall k | k in s
      ensures Entry(level, Get(t, k), s[k]) == Success(s[k])
    {
      EntryIntoMissing(level, s[k]);
    }
    var r := MergeMap(level, t, s);
    assert r.Success?;
    assert r.value.Keys == (t + s).Keys;
    forall k | k in r.value
      ensures r.value[k] == (t + s)[k]
    {
      if k in s {
        assert Entry(level, Get(t, k), s[k]) == Success(r.value[k]);
      }
    }
    assert r.value == t + s;
  }

  /** With disjoint keys, a merge is the plain union of the two dicts. */
  lemma MergeDisjoint(t: map<string, Value>, s: map<string, Value>)
    requires t.Keys !! s.Keys
    ensures Merge(t, s) == Success(t + s)
    ensures MergeDict(t, s) == Success(t + s)
  {
    MergeMapDisjoint(Top, t, s);
    MergeMapDisjoint(Nested, t, s);
  }

  /** Merging into an empty dict copies the source. */
  lemma MergeIntoEmpty(s: map<string, Value>)
    ensures Merge(map[], s) == Success(s)
    ensures MergeDict(map[], s) == Success(s)
  {
    MergeDisjoint(map[], s);
    assert map[] + s == s;
  }

  /** Merging an empty source changes nothing. */
  lemma MergeEmptySource(t: map<string, Value>)
    ensures Merge(t, map[]) == Success(t)
    ensures MergeDict(t, map[]) == Success(t)
  {
    MergeDisjoint(t, map[]);
    assert t + map[] == t;
  }

  // ---------------------------------------------------------------------------
  // Examples
  // ---------------------------------------------------------------------------

  /** A merge of one key into a dict holding only that key is that key's entry merge. */
  lemma MergeMapOneKey(level: Level, k: string, v: Value, ov: Value)
    requires level != InList
    ensures var e := Entry(level, v, ov);
            MergeMap(level, map[k := v], map[k := ov])
            == if e.Success? then Success(map[k := e.value]) else Failure(e.error)
  {
    var e := Entry(level, v, ov);
    assert Get(map[k := v], k) == v;
    if e.Success? {
      OneKeySuccess(level, k, v, ov);
    } else if e.error == Unmodelled {
      assert MergeMap(level, map[k := v], map[k := ov]) == Failure(Unmodelled);
    } else {
      assert MergeMap(level, map[k := v], map[k := ov]).Failure?;
    }
  }

  /** The successful case of `MergeMapOneKey`. */
  lemma OneKeySuccess(level: Level, k: string, v: Value, ov: Value)
    requires level != InList
    requires Entry(level, v, ov).Success?
    ensures MergeMap(level, map[k := v], map[k := ov]) == Success(map[k := Entry(level, v, ov).value])
  {
    var r := MergeMap(level, map[k := v], map[k := ov]);
    assert Get(map[k := v], k) == v;
    assert r.Success?;
    assert r.value.Keys == {k};
    assert r.value == map[k := r.value[k]];
  }

  /** A falsy target value takes the source value; a truthy `str` is kept. */
  lemma ExampleScalars()
    ensures Merge(map["a" := VInt(0)], map["a" := VInt(5)]) == Success(map["a" := VInt(5)])
    ensures Merge(map["a" := VStr("x")], map["a" := VStr("y")]) == Success(map["a" := VStr("x")])
  {
    MergeMapOneKey(Top, "a", VInt(0), VInt(5));
    MergeMapOneKey(Top, "a", VStr("x"), VStr("y"));
  }

  /** Two lists concatenate at the top level but merge position by position in a nested dict. */
  lemma ExampleLists()
    ensures Merge(map["l" := VList([VInt(1), VInt(0)])], map["l" := VList([VInt(5), VInt(7)])])
            == Success(map["l" := VList([VInt(1), VInt(0), VInt(5), VInt(7)])])
    ensures MergeDict(map["l" := VList([VInt(1), VInt(0)])], map["l" := VList([VInt(5), VInt(7)])])
            == Success(map["l" := VList([VInt(1), VInt(7)])])
  {
    var v := VList([VInt(1), VInt(0)]);
    var ov := VList([VInt(5), VInt(7)]);
    MergeMapOneKey(Top, "l", v, ov);
    assert v.items + ov.items == [VInt(1), VInt(0), VInt(5), VInt(7)];
    MergeMapOneKey(Nested, "l", v, ov);
    IndexWiseExample();
  }

  /** `[1, 0]` merged with `[5, 7]` index-wise keeps the truthy 1 and fills the falsy 0. */
  lemma IndexWiseExample()
    ensures MergeSeq([VInt(1), VInt(0)], [VInt(5), VInt(7)], 0) == Success([VInt(1), VInt(7)])
  {
    var src := [VInt(5), VInt(7)];
    assert MergeSeq([VInt(1), VInt(7)], src, 2) == Success([VInt(1), VInt(7)]);
    assert Entry(InList, VInt(0), VInt(7)) == Success(VInt(7));
    assert [VInt(1), VInt(0)][1 := VInt(7)] == [VInt(1), VInt(7)];
    assert MergeSeq([VInt(1), VInt(0)], src, 1) == Success([VInt(1), VInt(7)]);
    assert Entry(InList, VInt(1), VInt(5)) == Success(VInt(1));
    assert [VInt(1), VInt(0)][0 := VInt(1)] == [VInt(1), VInt(0)];
  }

  /** A nested source list longer than the target list raises IndexError. */
  lemma ExampleIndexError()
    ensures MergeDict(map["l" := VList([])], map["l" := VList([VInt(1)])]) == Failure(IndexError)
    ensures MergeDict(map["l" := VList([VInt(1)])], map["l" := VList([VInt(1), VInt(2)])]) == Failure(IndexError)
  {
    MergeMapOneKey(Nested, "l", VList([]), VList([VInt(1)]));
    MergeMapOneKey(Nested, "l", VList([VInt(1)]), VList([VInt(1), VInt(2)]));
  }

  /** A dict inside a list goes back through the top-level rules, so its lists concatenate. */
  lemma ExampleDictInList()
    ensures MergeDict(map["l" := VList([VDict(map["x" := VList([VInt(1)])])])],
                      map["l" := VList([VDict(map["x" := VList([VInt(2)])])])])
            == Success(map["l" := VList([VDict(map["x" := VList([VInt(1), VInt(2)])])])])
  {
    var one := VDict(map["x" := VList([VInt(1)])]);
    var two := VDict(map["x" := VList([VInt(2)])]);
    var both := VDict(map["x" := VList([VInt(1), VInt(2)])]);
    DictInListEntry();
    assert [one][0 := both] == [both];
    assert MergeSeq([one], [two], 0) == MergeSeq([both], [two], 1);
    MergeMapOneKey(Nested, "l", VList([one]), VList([two]));
  }

  /** The list item merge: the inner dicts merge under the top-level rules. */
  lemma DictInListEntry()
    ensures Entry(InList, VDict(map["x" := VList([VInt(1)])]), VDict(map["x" := VList([VInt(2)])]))
            == Success(VDict(map["x" := VList([VInt(1), VInt(2)])]))
  {
    var one := VList([VInt(1)]);
    var two := VList([VInt(2)]);
    MergeMapOneKey(Top, "x", one, two);
    assert one.items + two.items == [VInt(1), VInt(2)];
  }

  /** The same two dicts one level down in a dict merge their lists index-wise. */
  lemma ExampleDictInDict()
    ensures MergeDict(map["d" := VDict(map["x" := VList([VInt(1)])])],
                      map["d" := VDict(map["x" := VList([VInt(2)])])])
            == Success(map["d" := VDict(map["x" := VList([VInt(1)])])])
  {
    var one := VList([VInt(1)]);
    var two := VList([VInt(2)]);
    assert Entry(InList, VInt(1), VInt(2)) == Success(VInt(1));
    assert one.items[0 := VInt(1)] == one.items;
    assert MergeSeq(one.items, two.items, 0) == MergeSeq(one.items, two.items, 1);
    assert Entry(Nested, one, two) == Success(one);
    MergeMapOneKey(Nested, "x", one, two);
    MergeMapOneKey(Nested, "d", VDict(map["x" := one]), VDict(map["x" := two]));
  }
}

=== FILE: pagination.dfy ===
/**
 The pagination envelope of `contrib/pagination.py`: `page` and `api_page`
 copy the paging parameters and the total count into a `Page`, compute the
 number of pages and validate every record into the result model.

 The result model's `model_validate` is a parameter `validate` of the
 functions here; pydantic's validation of the envelope itself (positive
 page size and number, non-negative counts) is written out.
 */
module Pagination {
  import opened Wrappers

  /** `PageParamsModel`, or anything with `page_size` and `page_no` attributes. */
  datatype Params = Params(pageSize: int, pageNo: int)

  /** Plain field names (`Page`) or camelCase aliases (`APIPage`, via `APIModel`). */
  datatype Style = Plain | Api

  /** `Page[T]` / `APIPage[T]`. */
  datatype Envelope<T> = Envelope(style: Style, pageSize: int, pageNo: int, pageCount: int, count: int, results: seq<T>)

  /**
   Why `page` raises: the division by a zero page size, the first record the
   result model rejects (with its position and the model's error), or the
   envelope's own field constraints.
   */
  datatype PageError<E> = ZeroDivision | RecordInvalid(index: nat, error: E) | EnvelopeInvalid

  /**
   The validation error of `PageParamsModel(...)`: pydantic checks every
   field and lists each one outside its bounds.
   */
  datatype ParamsError = ParamsError(sizeOutOfRange: bool, noOutOfRange: bool)

  const DefaultPageSize: int := 50
  const MaxPageSize: int := 100
  const DefaultPageNo: int := 1

  // ---------------------------------------------------------------------------
  // Parameters
  // ---------------------------------------------------------------------------

  /** The bounds of `PageParamsModel`: `1 <= page_size <= 100`, `page_no >= 1`. */
  predicate ValidParams(p: Params) {
    1 <= p.pageSize <= MaxPageSize && p.pageNo >= 1
  }

  /**
   `PageParamsModel(page_size=?, page_no=?)`: an omitted value takes its
   default (50 and 1); both fields are checked, and the error names every
   field out of its bounds.
   */
  function MakeParams(pageSize: Option<int>, pageNo: Option<int>): (r: Result<Params, ParamsError>)
    ensures r.Success? <==> ValidParams(Params(pageSize.GetOr(DefaultPageSize), pageNo.GetOr(DefaultPageNo)))
    ensures r.Success? ==> r.value.pageSize == pageSize.GetOr(DefaultPageSize)
    ensures r.Success? ==> r.value.pageNo == pageNo.GetOr(DefaultPageNo)
    ensures r.Failure? ==> r.error.sizeOutOfRange == !(1 <= pageSize.GetOr(DefaultPageSize) <= MaxPageSize)
    ensures r.Failure? ==> r.error.noOutOfRange == (pageNo.GetOr(DefaultPageNo) < 1)
    ensures r.Failure? ==> r.error.sizeOutOfRange || r.error.noOutOfRange
  {
    var size := pageSize.GetOr(DefaultPageSize);
    var no := pageNo.GetOr(DefaultPageNo);
    var sizeBad := !(1 <= size <= MaxPageSize);
    var noBad := no < 1;
    if sizeBad || noBad then Failure(ParamsError(sizeBad, noBad))
    else Success(Params(size, no))
  }

  // ---------------------------------------------------------------------------
  // `ceil(count / page_size)`
  // ---------------------------------------------------------------------------

  /** Python's `a // b`: rounds toward negative infinity for either sign of `b`. */
  function FloorDiv(a: int, b: int): (q: int)
    requires b != 0
    ensures b > 0 ==> q * b <= a < q * b + b
    ensures b < 0 ==> q * b >= a > q * b + b
  {
    if b > 0 then a / b else (-a) / (-b)
  }

  /**
   `ceil(count / page_size)` on exact rationals: the least page count whose
   pages hold `count` records when the page size is positive.
   */
  function CeilDiv(a: int, b: int): (n: int)
    requires b != 0
    ensures b > 0 ==> a <= n * b && (n - 1) * b < a
    ensures b < 0 ==> a >= n * b && (n - 1) * b > a
  {
    -FloorDiv(-a, b)
  }

  // ---------------------------------------------------------------------------
  // Records
  // ---------------------------------------------------------------------------

  /**
   `[model_class.model_validate(i) for i in results]`: every record in order;
   the first rejected record stops the comprehension.
   */
  function ValidateAll<R, T, E>(validate: R -> Result<T, E>, records: seq<R>): (r: Result<seq<T>, (nat, E)>)
    decreases |records|
    ensures r.Success? <==> forall i | 0 <= i < |records| :: validate(records[i]).Success?
    ensures r.Success? ==> |r.value| == |records|
    ensures r.Success? ==> forall i | 0 <= i < |records| :: validate(records[i]) == Success(r.value[i])
    ensures r.Failure? ==>
              && r.error.0 < |records|
              && validate(records[r.error.0]) == Failure(r.error.1)
              && forall i | 0 <= i < r.error.0 :: validate(records[i]).Success?
  {
    if |records| == 0 then Success([])
    else
      var head := validate(records[0]);
      if head.Failure? then Failure((0, head.error))
      else
        var rest := ValidateAll(validate, records[1..]);
        if rest.Failure? then
          Failure((rest.error.0 + 1, rest.error.1))
        else
          assert forall i | 1 <= i < |records| :: records[i] == records[1..][i - 1];
          Success([head.value] + rest.value)
  }

  // ---------------------------------------------------------------------------
  // `page` and `api_page`
  // ---------------------------------------------------------------------------

  /** The field constraints of `Page`: positive page size and number, non-negative counts. */
  predicate ValidEnvelope<T>(e: Envelope<T>) {
    e.pageSize >= 1 && e.pageNo >= 1 && e.pageCount >= 0 && e.count >= 0
  }

  /**
   The keyword arguments of `Page(...)` evaluated left to right, then the
   model's validation.
   */
  function Build<R, T, E>(style: Style, validate: R -> Result<T, E>, p: Params, count: int, records: seq<R>)
    : Result<Envelope<T>, PageError<E>>
  {
    if p.pageSize == 0 then Failure(ZeroDivision)
    else
      var pageCount := CeilDiv(count, p.pageSize);
      var results := ValidateAll(validate, records);
      if results.Failure? then Failure(RecordInvalid(results.error.0, results.error.1))
      else
        var e := Envelope(style, p.pageSize, p.pageNo, pageCount, count, results.value);
        if ValidEnvelope(e) then Success(e) else Failure(EnvelopeInvalid)
  }

  /**
   `page(model_class, pagination, count, results)`. Nothing relates the page
   number to the page count.
   */
  function Page<R, T, E>(validate: R -> Result<T, E>, p: Params, count: int, records: seq<R>)
    : (r: Result<Envelope<T>, PageError<E>>)
    ensures r == Failure(ZeroDivision) <==> p.pageSize == 0
    ensures r.Success? <==>
              && p.pageSize >= 1 && p.pageNo >= 1 && count >= 0
              && forall i | 0 <= i < |records| :: validate(records[i]).Success?
    ensures r.Failure? && r.error.RecordInvalid? ==>
              && p.pageSize != 0
              && r.error.index < |records|
              && validate(records[r.error.index]) == Failure(r.error.error)
              && forall i | 0 <= i < r.error.index :: validate(records[i]).Success?
    ensures r.Success? ==>
              && r.value.style == Plain
              && r.value.pageSize == p.pageSize && r.value.pageNo == p.pageNo && r.value.count == count
              && r.value.pageCount * p.pageSize >= count && (r.value.pageCount - 1) * p.pageSize < count
              && |r.value.results| == |records|
              && forall i | 0 <= i < |records| :: validate(records[i]) == Success(r.value.results[i])
  {
    var r := Build(Plain, validate, p, count, records);
    assert p.pageSize >= 1 && count >= 0 ==> CeilDiv(count, p.pageSize) >= 0;
    r
  }

  /** `api_page(model_class, pagination, count, results)`: an `APIPage` built the same way. */
  function ApiPage<R, T, E>(validate: R -> Result<T, E>, p: Params, count: int, records: seq<R>)
    : (r: Result<Envelope<T>, PageError<E>>)
    ensures r == Failure(ZeroDivision) <==> p.pageSize == 0
    ensures r.Success? <==>
              && p.pageSize >= 1 && p.pageNo >= 1 && count >= 0
              && forall i | 0 <= i < |records| :: validate(records[i]).Success?
    ensures r.Success? ==>
              && r.value.style == Api
              && r.value.pageSize == p.pageSize && r.value.pageNo == p.pageNo && r.value.count == count
              && r.value.pageCount * p.pageSize >= count && (r.value.pageCount - 1) * p.pageSize < count
              && |r.value.results| == |records|
              && forall i | 0 <= i < |records| :: validate(records[i]) == Success(r.value.results[i])
  {
    var r := Build(Api, validate, p, count, records);
    assert p.pageSize >= 1 && count >= 0 ==> CeilDiv(count, p.pageSize) >= 0;
    r
  }

  // ---------------------------------------------------------------------------
  // Laws
  // ---------------------------------------------------------------------------

  /** `api_page` fails exactly as `page` does and otherwise differs only in the model class. */
  lemma ApiPageAgrees<R, T, E>(validate: R -> Result<T, E>, p: Params, count: int, records: seq<R>)
    ensures var a := ApiPage(validate, p, count, records);
            var b := Page(validate, p, count, records);
            && a.Success? == b.Success?
            && (a.Failure? ==> a.error == b.error)
            && (a.Success? ==> a.value == b.value.(style := Api))
  {
  }

  /** For a valid page size the page count is `ceil(count / page_size)`, and 0 for no records. */
  lemma PageCountExact(count: nat, size: int)
    requires size >= 1
    ensures CeilDiv(count, size) >= 0
    ensures count == 0 ==> CeilDiv(count, size) == 0
    ensures count % size == 0 ==> CeilDiv(count, size) == count / size
    ensures count % size != 0 ==> CeilDiv(count, size) == count / size + 1
  {
    var n := CeilDiv(count, size);
    var q := count / size;
    var d := n - q;
    assert count == q * size + count % size;
    assert d * size == n * size - q * size;
    assert (d - 1) * size == (n - 1) * size - q * size;
    MultipleBounds(d, size);
  }

  /** A multiple of a positive number lying in `[0, 2 * size)` is 0 or 1 times it. */
  lemma MultipleBounds(d: int, size: int)
    requires size >= 1
    ensures d * size >= 0 ==> d >= 0
    ensures (d - 1) * size < size ==> d <= 1
  {
    if d < 0 {
      assert d * size <= -size;
    }
    if d > 1 {
      assert (d - 1) * size >= size;
    }
  }

  /** The default parameters are a page of 50, the first page. */
  lemma DefaultParams()
    ensures MakeParams(None, None) == Success(Params(50, 1))
    ensures MakeParams(Some(101), None) == Failure(ParamsError(true, false))
    ensures MakeParams(Some(0), None) == Failure(ParamsError(true, false))
    ensures MakeParams(Some(1), Some(0)) == Failure(ParamsError(false, true))
    ensures MakeParams(Some(0), Some(0)) == Failure(ParamsError(true, true))
  {
  }

  /**
   `tests/contrib/test_pagination.py`: default parameters, a count of 10 and
   one valid record give one page holding that record's model.
   */
  lemma ExamplePage<R, T, E>(validate: R -> Result<T, E>, rec: R)
    requires validate(rec).Success?
    ensures var r := Page(validate, Params(50, 1), 10, [rec]);
            r.Success? && r.value.count == 10 && r.value.pageCount == 1 && r.value.results == [validate(rec).value]
  {
    PageCountExact(10, 50);
  }

  /** A page number beyond the last page is accepted. */
  lemma PageNoUnchecked<R, T, E>(validate: R -> Result<T, E>)
    ensures var r := Page(validate, Params(50, 7), 10, []);
            r.Success? && r.value.pageNo == 7 && r.value.pageCount == 1
  {
    PageCountExact(10, 50);
  }
}

=== FILE: path.dfy ===
/**
 The `Path` string subclass of `contrib/path.py`: a separator, a prefix and a
 flag for a leading separator, fixed per subclass; a regular expression that
 strips the leading run of separator/prefix tokens and the trailing run of
 separators; construction, `/` and `parent`.

 Strings are `seq<char>`. The separator is a single character. A subclass's
 class attributes are a `Config` value passed to every operation.
 */
module Paths {

  /** `__separator__`, `__prefix__`, `__startswith_separator__`. */
  datatype Config = Config(separator: char, prefix: string, startsWithSeparator: bool)

  /** The attributes of `Path` itself. */
  const Default := Config('/', "", true)

  /**
   The configurations the laws below hold for: the prefix is a single path
   segment (it does not contain the separator). `Default` and every subclass
   in the tests qualify.
   */
  predicate ValidConfig(cfg: Config) {
    cfg.separator !in cfg.prefix
  }

  /** A right-hand operand of `/`: a `str` (or `Path`) or an `int`. */
  datatype Segment = Text(text: string) | Number(n: int)

  // ---------------------------------------------------------------------------
  // The pattern of `_init_pattern`:
  //   ^(?:SEP|PREFIX)+|(?:SEP)+$     (or ^(?:SEP)+|(?:SEP)+$ without a prefix)
  // ---------------------------------------------------------------------------

  /** `p[k:]` occurs in `s` at `i + k`, compared one character at a time. */
  predicate MatchFrom(p: string, s: string, i: nat, k: nat)
    requires k <= |p| && i + |p| <= |s|
    decreases |p| - k
  {
    k == |p| || (s[i + k] == p[k] && MatchFrom(p, s, i, k + 1))
  }

  /** `s[i:].startswith(p)`. */
  predicate StartsAt(p: string, s: string, i: nat) {
    i + |p| <= |s| && MatchFrom(p, s, i, 0)
  }

  /** The character-by-character match is slice equality. */
  lemma {:induction false} MatchFromSlice(p: string, s: string, i: nat, k: nat)
    requires k <= |p| && i + |p| <= |s|
    decreases |p| - k
    ensures MatchFrom(p, s, i, k) <==> s[i + k..i + |p|] == p[k..]
  {
    if k < |p| {
      MatchFromSlice(p, s, i, k + 1);
      assert s[i + k..i + |p|] == [s[i + k]] + s[i + k + 1..i + |p|];
      assert p[k..] == [p[k]] + p[k + 1..];
    }
  }

  /** `StartsAt` as a slice of `s`. */
  lemma StartsAtSlice(p: string, s: string, i: nat)
    ensures StartsAt(p, s, i) <==> i + |p| <= |s| && s[i..i + |p|] == p
  {
    if i + |p| <= |s| {
      MatchFromSlice(p, s, i, 0);
      assert p[0..] == p;
    }
  }

  /**
   Length of the alternative `SEP|PREFIX` matched at `i`: the separator is
   tried first, the prefix only when it is non-empty; 0 when neither matches.
   */
  function TokenLength(cfg: Config, s: string, i: nat): (n: nat)
    requires i <= |s|
    ensures n <= |s| - i
  {
    if i < |s| && s[i] == cfg.separator then 1
    else if |cfg.prefix| > 0 && StartsAt(cfg.prefix, s, i) then |cfg.prefix|
    else 0
  }

  /** A string made only of separator and prefix tokens, in any split. */
  predicate Tokens(cfg: Config, x: string)
    decreases |x|
  {
    || x == []
    || (x[0] == cfg.separator && Tokens(cfg, x[1..]))
    || (|cfg.prefix| > 0 && StartsAt(cfg.prefix, x, 0) && Tokens(cfg, x[|cfg.prefix|..]))
  }

  predicate AllSeparators(cfg: Config, x: string) {
    forall j | 0 <= j < |x| :: x[j] == cfg.separator
  }

  /**
   Where the greedy `^(?:SEP|PREFIX)+` stops when started at `i`: the regex
   engine takes one more token while one matches, separator first.
   */
  function LeadingEnd(cfg: Config, s: string, i: nat): (e: nat)
    requires i <= |s|
    decreases |s| - i
    ensures i <= e <= |s|
  {
    var n := TokenLength(cfg, s, i);
    if n == 0 then i else LeadingEnd(cfg, s, i + n)
  }

  /** The greedy scan stops where no token matches. */
  lemma {:induction false} LeadingEndStops(cfg: Config, s: string, i: nat)
    requires i <= |s|
    decreases |s| - i
    ensures TokenLength(cfg, s, LeadingEnd(cfg, s, i)) == 0
  {
    var n := TokenLength(cfg, s, i);
    if n > 0 {
      LeadingEndStops(cfg, s, i + n);
    }
  }

  /** A run of tokens extended by one token in front is still a run of tokens. */
  lemma TokensCons(cfg: Config, x: string, n: nat)
    requires 0 < n <= |x|
    requires (n == 1 && x[0] == cfg.separator) || (|cfg.prefix| > 0 && n == |cfg.prefix| && x[..n] == cfg.prefix)
    requires Tokens(cfg, x[n..])
    ensures Tokens(cfg, x)
  {
    StartsAtSlice(cfg.prefix, x, 0);
    assert x[0..n] == x[..n];
  }

  /** The token the scan takes at `i` is the text at `i`: the separator, or the prefix. */
  lemma TokenAt(cfg: Config, s: string, i: nat)
    requires i <= |s| && TokenLength(cfg, s, i) > 0
    ensures var n := TokenLength(cfg, s, i);
            || (n == 1 && s[i] == cfg.separator)
            || (|cfg.prefix| > 0 && n == |cfg.prefix| && s[i..i + n] == cfg.prefix)
  {
    var n := TokenLength(cfg, s, i);
    if !(i < |s| && s[i] == cfg.separator) {
      StartsAtSlice(cfg.prefix, s, i);
    }
  }

  /** What the greedy scan skips is a run of tokens. */
  lemma {:induction false} LeadingEndTokens(cfg: Config, s: string, i: nat)
    requires i <= |s|
    decreases |s| - i
    ensures Tokens(cfg, s[i..LeadingEnd(cfg, s, i)])
  {
    var n := TokenLength(cfg, s, i);
    if n > 0 {
      var e := LeadingEnd(cfg, s, i + n);
      assert LeadingEnd(cfg, s, i) == e;
      LeadingEndTokens(cfg, s, i + n);
      TokenAt(cfg, s, i);
      var x := s[i..e];
      assert x[n..] == s[i + n..e];
      assert x[..n] == s[i..i + n];
      TokensCons(cfg, x, n);
    } else {
      assert s[i..i] == [];
    }
  }

  /**
   Where `(?:SEP)+$` first matches at or after `from`: the start of the
   trailing run of separators, or `|s|` when there is none.
   */
  function TrailingStart(cfg: Config, s: string, from: nat): (p: nat)
    requires from <= |s|
    decreases |s|
    ensures from <= p <= |s|
  {
    if |s| > from && s[|s| - 1] == cfg.separator then TrailingStart(cfg, s[..|s| - 1], from)
    else |s|
  }

  /** The trailing scan finds a whole run of separators and nothing less. */
  lemma {:induction false} TrailingStartRun(cfg: Config, s: string, from: nat)
    requires from <= |s|
    decreases |s|
    ensures var p := TrailingStart(cfg, s, from);
            AllSeparators(cfg, s[p..]) && (p == from || s[p - 1] != cfg.separator)
  {
    if |s| > from && s[|s| - 1] == cfg.separator {
      var t := s[..|s| - 1];
      TrailingStartRun(cfg, t, from);
      var p := TrailingStart(cfg, t, from);
      assert s[p..] == t[p..] + [s[|s| - 1]];
      assert s[..p] == t[..p];
    }
  }

  /** A string `_replace` leaves alone: no leading token, no trailing separator. */
  predicate Clean(cfg: Config, r: string) {
    r == [] || (TokenLength(cfg, r, 0) == 0 && r[|r| - 1] != cfg.separator)
  }

  /**
   `_replace(value)`: `pattern.sub("", value)`. The first match can only be
   the leading run at position 0; the search then resumes where it ended and
   finds the trailing run.
   */
  function Replace(cfg: Config, s: string): (r: string)
    ensures |r| <= |s|
    ensures Clean(cfg, r)
  {
    var e := LeadingEnd(cfg, s, 0);
    var p := TrailingStart(cfg, s, e);
    LeadingEndStops(cfg, s, 0);
    TrailingStartRun(cfg, s, e);
    CleanSlice(cfg, s, e, p);
    s[e..p]
  }

  /**
   What `_replace` leaves: one contiguous slice of the input, so interior
   text is unchanged, after a run of leading tokens and before a run of
   separators; and nothing more would be stripped from it.
   */
  lemma ReplaceShape(cfg: Config, s: string)
    ensures exists e: nat, p: nat | e <= p <= |s| ::
              Replace(cfg, s) == s[e..p] && Tokens(cfg, s[..e]) && AllSeparators(cfg, s[p..])
    ensures Clean(cfg, Replace(cfg, s))
  {
    var e := LeadingEnd(cfg, s, 0);
    var p := TrailingStart(cfg, s, e);
    var r := s[e..p];
    LeadingEndTokens(cfg, s, 0);
    LeadingEndStops(cfg, s, 0);
    TrailingStartRun(cfg, s, e);
    assert s[..e] == s[0..e];
    assert r == s[e..p] && Tokens(cfg, s[..e]) && AllSeparators(cfg, s[p..]);
    CleanSlice(cfg, s, e, p);
  }

  /** A slice that starts where no token matches and ends after a non-separator is clean. */
  lemma CleanSlice(cfg: Config, s: string, e: nat, p: nat)
    requires e <= p <= |s| && TokenLength(cfg, s, e) == 0
    requires p == e || s[p - 1] != cfg.separator
    ensures Clean(cfg, s[e..p])
  {
    var r := s[e..p];
    var q := |cfg.prefix|;
    if r != [] && q <= |r| {
      StartsAtSlice(cfg.prefix, r, 0);
      StartsAtSlice(cfg.prefix, s, e);
      assert s[e..e + q] == r[0..q];
    }
  }

  /** The text `__new__` puts in front of the stripped input. */
  function Frame(cfg: Config): string {
    (if cfg.startsWithSeparator then [cfg.separator] else [])
    + (if |cfg.prefix| > 0 then cfg.prefix + [cfg.separator] else [])
  }

  /** A `Path` value: the frame, then text `_replace` would leave alone. */
  predicate Framed(cfg: Config, r: string) {
    Frame(cfg) <= r && Clean(cfg, r[|Frame(cfg)|..])
  }

  /** `Path.__new__(cls, object)` for `str(object) == s`. */
  function New(cfg: Config, s: string): (r: string)
    ensures r == Frame(cfg) + Replace(cfg, s)
    ensures Framed(cfg, r)
  {
    var result := Replace(cfg, s);
    var result := if |cfg.prefix| > 0 then cfg.prefix + [cfg.separator] + result else result;
    if cfg.startsWithSeparator then [cfg.separator] + result else result
  }

  /** Decimal digits of a natural number, as `str(int)` prints them. */
  function NatToString(n: nat): (r: string)
    decreases n
    ensures |r| > 0
  {
    var d := [('0' as int + n % 10) as char];
    if n < 10 then d else NatToString(n / 10) + d
  }

  /** `str(other)`: a `str` as is, an `int` in decimal. */
  function SegmentText(x: Segment): string {
    match x
    case Text(t) => t
    case Number(n) => if n < 0 then "-" + NatToString(-n) else NatToString(n)
  }

  /** `sep.join([a, b])`. */
  function JoinTwo(cfg: Config, a: string, b: string): string {
    a + [cfg.separator] + b
  }

  /** `self / other`: both operands stripped, joined by the separator, rebuilt. */
  function Div(cfg: Config, p: string, other: Segment): (r: string)
    ensures Framed(cfg, r)
  {
    New(cfg, JoinTwo(cfg, Replace(cfg, p), Replace(cfg, SegmentText(other))))
  }

  // ---------------------------------------------------------------------------
  // `str.split` and `str.join` with a one-character separator
  // ---------------------------------------------------------------------------

  /** `s.split(c)`: never empty; one more part than occurrences of `c`. */
  function Split(s: string, c: char): (parts: seq<string>)
    decreases |s|
    ensures |parts| >= 1
    ensures forall k | 0 <= k < |parts| :: c !in parts[k]
  {
    if |s| == 0 then [""]
    else
      var rest := Split(s[1..], c);
      if s[0] == c then [""] + rest
      else [[s[0]] + rest[0]] + rest[1..]
  }

  /** `c.join(parts)`. */
  function Join(parts: seq<string>, c: char): string
    decreases |parts|
  {
    if |parts| == 0 then ""
    else if |parts| == 1 then parts[0]
    else parts[0] + [c] + Join(parts[1..], c)
  }

  /** `p.parent`: everything up to the last separator, rebuilt as a path. */
  function Parent(cfg: Config, p: string): (r: string)
    ensures Framed(cfg, r)
  {
    var parts := Split(p, cfg.separator);
    New(cfg, Join(parts[..|parts| - 1], cfg.separator))
  }

  /** Index of the last occurrence of `c` in `s`. */
  function LastIndex(s: string, c: char): (i: nat)
    requires c in s
    decreases |s|
    ensures i < |s| && s[i] == c
    ensures c !in s[i + 1..]
  {
    if s[|s| - 1] == c then |s| - 1
    else
      assert s == s[..|s| - 1] + [s[|s| - 1]];
      var i := LastIndex(s[..|s| - 1], c);
      assert s[i + 1..] == s[..|s| - 1][i + 1..] + [s[|s| - 1]];
      i
  }

  // ---------------------------------------------------------------------------
  // Laws
  // ---------------------------------------------------------------------------

  /** `_replace` leaves a string alone exactly when there is nothing to strip. */
  lemma ReplaceClean(cfg: Config, r: string)
    ensures Clean(cfg, r) <==> Replace(cfg, r) == r
  {
    if Clean(cfg, r) {
      assert LeadingEnd(cfg, r, 0) == 0;
      assert TrailingStart(cfg, r, 0) == |r|;
      assert r[0..|r|] == r;
    }
  }

  /** Stripping twice strips nothing more. */
  lemma ReplaceIdempotent(cfg: Config, s: string)
    ensures Replace(cfg, Replace(cfg, s)) == Replace(cfg, s)
  {
    ReplaceShape(cfg, s);
    ReplaceClean(cfg, Replace(cfg, s));
  }

  /** A token is recognised at the same place of `y` with or without a head `x`. */
  lemma TokenLengthShift(cfg: Config, x: string, y: string, j: nat)
    requires j <= |y|
    ensures TokenLength(cfg, x + y, |x| + j) == TokenLength(cfg, y, j)
  {
    var q := |cfg.prefix|;
    StartsAtSlice(cfg.prefix, x + y, |x| + j);
    StartsAtSlice(cfg.prefix, y, j);
    if j + q <= |y| {
      assert (x + y)[|x| + j..|x| + j + q] == y[j..j + q];
    }
  }

  /**
   The greedy scan over `s` from `d + j` follows the scan over `y` from `j`
   when both recognise the same tokens at every later aligned position.
   */
  lemma {:induction false} LeadingEndAligned(cfg: Config, s: string, y: string, d: nat, j: nat)
    requires |s| == d + |y| && j <= |y|
    requires forall k | j <= k <= |y| :: TokenLength(cfg, s, d + k) == TokenLength(cfg, y, k)
    decreases |y| - j
    ensures LeadingEnd(cfg, s, d + j) == d + LeadingEnd(cfg, y, j)
  {
    var n := TokenLength(cfg, y, j);
    assert TokenLength(cfg, s, d + j) == n;
    if n > 0 {
      LeadingEndAligned(cfg, s, y, d, j + n);
      assert LeadingEnd(cfg, s, d + j) == LeadingEnd(cfg, s, d + (j + n));
    }
  }

  /** The greedy scan past a fixed head `x` runs on `y` as if `x` were absent. */
  lemma LeadingEndShift(cfg: Config, x: string, y: string, j: nat)
    requires j <= |y|
    ensures LeadingEnd(cfg, x + y, |x| + j) == |x| + LeadingEnd(cfg, y, j)
  {
    forall k | j <= k <= |y|
      ensures TokenLength(cfg, x + y, |x| + k) == TokenLength(cfg, y, k)
    {
      TokenLengthShift(cfg, x, y, k);
    }
    LeadingEndAligned(cfg, x + y, y, |x|, j);
  }

  /** The trailing scan that starts inside `y` never looks at the head `x`. */
  lemma {:induction false} TrailingStartShift(cfg: Config, x: string, y: string, j: nat)
    requires j <= |y|
    decreases |y|
    ensures TrailingStart(cfg, x + y, |x| + j) == |x| + TrailingStart(cfg, y, j)
  {
    if |y| > j && y[|y| - 1] == cfg.separator {
      assert (x + y)[..|x + y| - 1] == x + y[..|y| - 1];
      TrailingStartShift(cfg, x, y[..|y| - 1], j);
    }
  }

  /** One step of the greedy scan. */
  lemma LeadingEndStep(cfg: Config, s: string, i: nat)
    requires i <= |s| && TokenLength(cfg, s, i) > 0
    ensures LeadingEnd(cfg, s, i) == LeadingEnd(cfg, s, i + TokenLength(cfg, s, i))
  {
  }

  /** The prefix is recognised as a token wherever it occurs, if it does not start with the separator. */
  lemma PrefixToken(cfg: Config, s: string, i: nat)
    requires ValidConfig(cfg) && |cfg.prefix| > 0
    requires i + |cfg.prefix| <= |s| && s[i..i + |cfg.prefix|] == cfg.prefix
    ensures TokenLength(cfg, s, i) == |cfg.prefix|
  {
    assert cfg.prefix[0] in cfg.prefix;
    assert s[i] == cfg.prefix[0];
    StartsAtSlice(cfg.prefix, s, i);
  }

  /** A separator in front is one token of the greedy leading scan. */
  lemma LeadingEndSeparatorHead(cfg: Config, z: string)
    ensures LeadingEnd(cfg, [cfg.separator] + z, 0) == 1 + LeadingEnd(cfg, z, 0)
  {
    var s := [cfg.separator] + z;
    assert TokenLength(cfg, s, 0) == 1;
    LeadingEndStep(cfg, s, 0);
    LeadingEndShift(cfg, [cfg.separator], z, 0);
  }

  /** The prefix in front is one token of the greedy leading scan, when it does not hold the separator. */
  lemma LeadingEndPrefixHead(cfg: Config, z: string)
    requires ValidConfig(cfg) && |cfg.prefix| > 0
    ensures LeadingEnd(cfg, cfg.prefix + z, 0) == |cfg.prefix| + LeadingEnd(cfg, z, 0)
  {
    var s := cfg.prefix + z;
    assert s[0..|cfg.prefix|] == cfg.prefix;
    PrefixToken(cfg, s, 0);
    LeadingEndStep(cfg, s, 0);
    LeadingEndShift(cfg, cfg.prefix, z, 0);
  }

  /** The frame is consumed token by token by the greedy leading scan. */
  lemma LeadingEndFrame(cfg: Config, y: string)
    requires ValidConfig(cfg)
    ensures LeadingEnd(cfg, Frame(cfg) + y, 0) == |Frame(cfg)| + LeadingEnd(cfg, y, 0)
  {
    var sep := [cfg.separator];
    var pre := cfg.prefix;
    var tail := if |pre| > 0 then pre + sep else [];
    var z := tail + y;
    if |pre| > 0 {
      assert z == pre + (sep + y);
      LeadingEndPrefixHead(cfg, sep + y);
      LeadingEndSeparatorHead(cfg, y);
    } else {
      assert z == y;
    }
    assert LeadingEnd(cfg, z, 0) == |tail| + LeadingEnd(cfg, y, 0);
    if cfg.startsWithSeparator {
      assert Frame(cfg) == sep + tail;
      assert Frame(cfg) + y == sep + z;
      LeadingEndSeparatorHead(cfg, z);
    } else {
      assert Frame(cfg) == tail;
    }
  }

  /** `_replace` keeps the text between the two scans. */
  lemma ReplaceBy(cfg: Config, s: string, e: nat, p: nat)
    requires e == LeadingEnd(cfg, s, 0) && p == TrailingStart(cfg, s, e)
    ensures Replace(cfg, s) == s[e..p]
  {
  }

  /** Stripping ignores a head `x` that the leading scan consumes whole. */
  lemma ReplaceAfterHead(cfg: Config, x: string, y: string)
    requires LeadingEnd(cfg, x + y, 0) == |x| + LeadingEnd(cfg, y, 0)
    ensures Replace(cfg, x + y) == Replace(cfg, y)
  {
    var s := x + y;
    var e := LeadingEnd(cfg, y, 0);
    var p := TrailingStart(cfg, y, e);
    TrailingStartShift(cfg, x, y, e);
    ReplaceBy(cfg, y, e, p);
    ReplaceBy(cfg, s, |x| + e, |x| + p);
    assert s[|x| + e..|x| + p] == y[e..p];
  }

  /** Stripping ignores a frame in front of the text. */
  lemma ReplaceAfterFrame(cfg: Config, y: string)
    requires ValidConfig(cfg)
    ensures Replace(cfg, Frame(cfg) + y) == Replace(cfg, y)
  {
    LeadingEndFrame(cfg, y);
    ReplaceAfterHead(cfg, Frame(cfg), y);
  }

  /** Rebuilding a built path changes nothing: `Path(Path(s)) == Path(s)`. */
  lemma NewIdempotent(cfg: Config, s: string)
    requires ValidConfig(cfg)
    ensures Replace(cfg, New(cfg, s)) == Replace(cfg, s)
    ensures New(cfg, New(cfg, s)) == New(cfg, s)
  {
    ReplaceAfterFrame(cfg, Replace(cfg, s));
    ReplaceIdempotent(cfg, s);
  }

  /** Two stripped segments joined by the separator; an empty one vanishes. */
  function JoinSegments(cfg: Config, a: string, b: string): string {
    if a == [] then b
    else if b == [] then a
    else a + [cfg.separator] + b
  }

  /** A separator in front of a stripped string is stripped again. */
  lemma ReplaceSeparatorThen(cfg: Config, b: string)
    requires Clean(cfg, b)
    ensures Replace(cfg, [cfg.separator] + b) == b
  {
    var s := [cfg.separator] + b;
    ReplaceClean(cfg, b);
    LeadingEndStep(cfg, s, 0);
    LeadingEndShift(cfg, [cfg.separator], b, 0);
    TrailingStartShift(cfg, [cfg.separator], b, 0);
    assert s[1..1 + |b|] == b;
  }

  /** A non-empty stripped string followed by more text has no leading token. */
  lemma NoLeadingToken(cfg: Config, a: string, rest: string)
    requires ValidConfig(cfg) && Clean(cfg, a) && a != []
    requires |rest| > 0 && rest[0] == cfg.separator
    ensures TokenLength(cfg, a + rest, 0) == 0
  {
    var s := a + rest;
    var pre := cfg.prefix;
    assert s[0] == a[0];
    if |pre| > 0 {
      StartsAtSlice(pre, s, 0);
      StartsAtSlice(pre, a, 0);
      if |pre| > |a| {
        assert pre[|a|] in pre;
        assert s[|a|] == cfg.separator;
      } else {
        assert s[0..|pre|] == a[0..|pre|];
      }
    }
  }

  /** Joining two stripped strings gives a string `_replace` reduces to their join. */
  lemma ReplaceJoinTwo(cfg: Config, a: string, b: string)
    requires ValidConfig(cfg)
    requires Clean(cfg, a) && Clean(cfg, b)
    ensures Replace(cfg, JoinTwo(cfg, a, b)) == JoinSegments(cfg, a, b)
  {
    var sep := cfg.separator;
    var s := JoinTwo(cfg, a, b);
    if a == [] {
      assert s == [sep] + b;
      ReplaceSeparatorThen(cfg, b);
    } else {
      assert s == a + ([sep] + b);
      NoLeadingToken(cfg, a, [sep] + b);
      assert LeadingEnd(cfg, s, 0) == 0;
      if b == [] {
        assert s[..|s| - 1] == a;
        ReplaceClean(cfg, a);
        assert TrailingStart(cfg, s, 0) == TrailingStart(cfg, a, 0) == |a|;
        assert s[0..|a|] == a;
      } else {
        assert s[|s| - 1] == b[|b| - 1];
        assert TrailingStart(cfg, s, 0) == |s|;
        assert s[0..|s|] == s;
      }
    }
  }

  /**
   `/` on a built path: the result is the frame once, then the two stripped
   operands joined by one separator. The prefix is never repeated.
   */
  lemma DivOfNew(cfg: Config, a: string, x: Segment)
    requires ValidConfig(cfg)
    ensures Div(cfg, New(cfg, a), x)
            == Frame(cfg) + JoinSegments(cfg, Replace(cfg, a), Replace(cfg, SegmentText(x)))
  {
    NewIdempotent(cfg, a);
    ReplaceShape(cfg, a);
    ReplaceShape(cfg, SegmentText(x));
    ReplaceJoinTwo(cfg, Replace(cfg, a), Replace(cfg, SegmentText(x)));
  }

  /** `p / "" == p` for every built path `p`. */
  lemma DivEmpty(cfg: Config, a: string)
    requires ValidConfig(cfg)
    ensures Div(cfg, New(cfg, a), Text("")) == New(cfg, a)
  {
    DivOfNew(cfg, a, Text(""));
    assert Replace(cfg, "") == "";
  }

  /** `c.join(s.split(c)) == s`. */
  lemma {:induction false} JoinSplit(s: string, c: char)
    decreases |s|
    ensures Join(Split(s, c), c) == s
  {
    if |s| > 0 {
      var rest := Split(s[1..], c);
      JoinSplit(s[1..], c);
      if s[0] == c {
        assert s == [c] + s[1..];
      } else {
        JoinConsHead(s[0], rest, c);
        assert s == [s[0]] + s[1..];
      }
    }
  }

  /** Extending the first part of a join extends the joined string. */
  lemma JoinConsHead(ch: char, parts: seq<string>, c: char)
    requires |parts| >= 1
    ensures Join([[ch] + parts[0]] + parts[1..], c) == [ch] + Join(parts, c)
  {
    var ps := [[ch] + parts[0]] + parts[1..];
    if |parts| > 1 {
      assert ps[1..] == parts[1..];
    }
  }

  /** Dropping the last part of `s.split(c)` keeps the text before the last `c`. */
  lemma {:induction false} JoinDropLast(s: string, c: char)
    decreases |s|
    ensures DropLastKeeps(s, c)
  {
    if |s| > 0 {
      JoinDropLast(s[1..], c);
      if s[0] == c {
        DropLastAfterSeparator(s, c);
      } else {
        DropLastAfterOther(s, c);
      }
    }
  }

  /** `c.join(s.split(c)[:-1])` is the text before the last `c`, or empty without one. */
  predicate DropLastKeeps(s: string, c: char) {
    var parts := Split(s, c);
    Join(parts[..|parts| - 1], c) == if c in s then s[..LastIndex(s, c)] else ""
  }

  /** The step of `JoinDropLast` for a string that starts with `c`. */
  lemma DropLastAfterSeparator(s: string, c: char)
    requires |s| > 0 && s[0] == c && DropLastKeeps(s[1..], c)
    ensures DropLastKeeps(s, c)
  {
    var rest := Split(s[1..], c);
    var parts := Split(s, c);
    assert s == [s[0]] + s[1..];
    assert parts[..|parts| - 1] == [""] + rest[..|rest| - 1];
    LastIndexCons(s, c);
    if c in s[1..] {
      assert Join([""] + rest[..|rest| - 1], c) == [c] + Join(rest[..|rest| - 1], c);
    } else {
      SplitCount(s[1..], c);
    }
  }

  /** The step of `JoinDropLast` for a string that starts with another character. */
  lemma DropLastAfterOther(s: string, c: char)
    requires |s| > 0 && s[0] != c && DropLastKeeps(s[1..], c)
    ensures DropLastKeeps(s, c)
  {
    var rest := Split(s[1..], c);
    var parts := Split(s, c);
    assert s == [s[0]] + s[1..];
    SplitCount(s[1..], c);
    if |rest| == 1 {
      assert c !in s;
    } else {
      assert c in s[1..];
      LastIndexCons(s, c);
      assert parts[..|parts| - 1] == [[s[0]] + rest[0]] + rest[1..|rest| - 1];
      JoinConsHead(s[0], rest[..|rest| - 1], c);
      assert rest[..|rest| - 1][1..] == rest[1..|rest| - 1];
    }
  }

  /** `s.split(c)` has exactly one part when `c` does not occur. */
  lemma {:induction false} SplitCount(s: string, c: char)
    decreases |s|
    ensures |Split(s, c)| == 1 <==> c !in s
  {
    if |s| > 0 {
      SplitCount(s[1..], c);
      assert s == [s[0]] + s[1..];
    }
  }

  /** The last `c` of `s` seen from its tail `s[1..]`. */
  lemma LastIndexCons(s: string, c: char)
    requires |s| > 0 && c in s
    ensures c in s[1..] ==> LastIndex(s, c) == 1 + LastIndex(s[1..], c)
    ensures c !in s[1..] ==> LastIndex(s, c) == 0
  {
    var i := LastIndex(s, c);
    if c in s[1..] {
      var j := LastIndex(s[1..], c);
      assert s[1 + j] == c;
    }
  }

  /** An occurrence of `c` with no `c` after it is the last one. */
  lemma LastIndexUnique(s: string, c: char, j: nat)
    requires j < |s| && s[j] == c && c !in s[j + 1..]
    ensures LastIndex(s, c) == j
  {
  }

  /** The frame without its final separator is stripped away entirely. */
  lemma ReplaceFrameHead(cfg: Config)
    requires ValidConfig(cfg) && Frame(cfg) != []
    ensures Replace(cfg, Frame(cfg)[..|Frame(cfg)| - 1]) == ""
  {
    var f := Frame(cfg);
    var s := f[..|f| - 1];
    var pre := cfg.prefix;
    if |pre| > 0 {
      var head := if cfg.startsWithSeparator then [cfg.separator] else [];
      var k := |head|;
      assert f == head + pre + [cfg.separator];
      assert s == head + pre;
      if cfg.startsWithSeparator {
        assert s[0] == cfg.separator;
        LeadingEndStep(cfg, s, 0);
      }
      assert s[k..k + |pre|] == pre;
      PrefixToken(cfg, s, k);
      LeadingEndStep(cfg, s, k);
      assert LeadingEnd(cfg, s, 0) == |s|;
    }
  }

  /** `parent` keeps what precedes the last separator... */
  lemma ParentCut(cfg: Config, p: string, q: string)
    requires cfg.separator in p && q == p[..LastIndex(p, cfg.separator)]
    ensures Parent(cfg, p) == New(cfg, q)
  {
    JoinDropLast(p, cfg.separator);
  }

  /** ...or nothing at all when there is no separator. */
  lemma ParentWhole(cfg: Config, p: string)
    requires cfg.separator !in p
    ensures Parent(cfg, p) == Frame(cfg)
  {
    JoinDropLast(p, cfg.separator);
    assert Replace(cfg, "") == "";
  }

  /** The last separator of `f + r` lies in `r` when `r` has one. */
  lemma LastIndexInSuffix(f: string, r: string, c: char)
    requires c in r
    ensures c in f + r && LastIndex(f + r, c) == |f| + LastIndex(r, c)
  {
    var li := LastIndex(r, c);
    var p := f + r;
    assert p[|f| + li] == c;
    assert p[|f| + li + 1..] == r[li + 1..];
    LastIndexUnique(p, c, |f| + li);
  }

  /** Otherwise it is the final character of `f`, when that is one. */
  lemma LastIndexInPrefix(f: string, r: string, c: char)
    requires f != [] && f[|f| - 1] == c && c !in r
    ensures c in f + r && LastIndex(f + r, c) == |f| - 1
  {
    var p := f + r;
    assert p[|f| - 1] == c;
    assert p[|f|..] == r;
    LastIndexUnique(p, c, |f| - 1);
  }

  /** `parent` of the frame followed by text containing a separator. */
  lemma ParentWithSeparator(cfg: Config, r: string)
    requires ValidConfig(cfg) && cfg.separator in r
    ensures Parent(cfg, Frame(cfg) + r) == New(cfg, r[..LastIndex(r, cfg.separator)])
  {
    var f := Frame(cfg);
    var li := LastIndex(r, cfg.separator);
    LastIndexInSuffix(f, r, cfg.separator);
    assert (f + r)[..|f| + li] == f + r[..li];
    ParentCut(cfg, f + r, f + r[..li]);
    ReplaceAfterFrame(cfg, r[..li]);
  }

  /** `parent` of the frame followed by text without a separator. */
  lemma ParentWithoutSeparator(cfg: Config, r: string)
    requires ValidConfig(cfg) && cfg.separator !in r
    ensures Parent(cfg, Frame(cfg) + r) == Frame(cfg)
  {
    var f := Frame(cfg);
    if f == [] {
      assert f + r == r;
      ParentWhole(cfg, r);
    } else {
      LastIndexInPrefix(f, r, cfg.separator);
      assert (f + r)[..|f| - 1] == f[..|f| - 1];
      ParentCut(cfg, f + r, f[..|f| - 1]);
      ReplaceFrameHead(cfg);
    }
  }

  /**
   `parent` of a built path: the text after its last separator is dropped
   and the rest rebuilt; a path of one segment, or none, has the bare frame
   (`"/"` for `Path`) as its parent.
   */
  lemma ParentOfNew(cfg: Config, a: string)
    requires ValidConfig(cfg)
    ensures var r := Replace(cfg, a);
            Parent(cfg, New(cfg, a))
            == if cfg.separator in r then New(cfg, r[..LastIndex(r, cfg.separator)]) else Frame(cfg)
  {
    var r := Replace(cfg, a);
    if cfg.separator in r {
      ParentWithSeparator(cfg, r);
    } else {
      ParentWithoutSeparator(cfg, r);
    }
  }

  // ---------------------------------------------------------------------------
  // The examples of the test suite
  // ---------------------------------------------------------------------------

  /** `/` on a path whose text after the frame is already plain. */
  lemma DivOfBuilt(cfg: Config, a: string, x: Segment)
    requires ValidConfig(cfg) && Clean(cfg, a)
    ensures Div(cfg, Frame(cfg) + a, x)
            == Frame(cfg) + JoinSegments(cfg, a, Replace(cfg, SegmentText(x)))
  {
    ReplaceClean(cfg, a);
    assert New(cfg, a) == Frame(cfg) + a;
    DivOfNew(cfg, a, x);
  }

  /** A plain segment added to a built path leaves plain text after the frame. */
  lemma DivPlain(cfg: Config, a: string, b: string)
    requires ValidConfig(cfg)
    requires Clean(cfg, a) && Clean(cfg, b) && a != [] && b != []
    ensures Div(cfg, New(cfg, a), Text(b)) == Frame(cfg) + JoinTwo(cfg, a, b)
    ensures Clean(cfg, JoinTwo(cfg, a, b))
  {
    ReplaceClean(cfg, a);
    ReplaceClean(cfg, b);
    DivOfNew(cfg, a, Text(b));
    ReplaceJoinTwo(cfg, a, b);
    ReplaceClean(cfg, JoinTwo(cfg, a, b));
  }

  /** Two further segments added to a built path, each already plain text. */
  lemma DivChain(cfg: Config, a: string, b: string, x: Segment)
    requires ValidConfig(cfg)
    requires Clean(cfg, a) && Clean(cfg, b) && Clean(cfg, SegmentText(x))
    requires a != [] && b != [] && SegmentText(x) != []
    ensures Div(cfg, Div(cfg, New(cfg, a), Text(b)), x)
            == Frame(cfg) + JoinTwo(cfg, JoinTwo(cfg, a, b), SegmentText(x))
  {
    DivPlain(cfg, a, b);
    ReplaceClean(cfg, SegmentText(x));
    DivOfBuilt(cfg, JoinTwo(cfg, a, b), x);
  }

  /** `P("123") / "123" / 123` ends in the three segments joined by the separator. */
  lemma ExampleChain(cfg: Config)
    requires cfg.separator !in "abc123" && (cfg.prefix == "" || cfg.prefix == "abc")
    ensures Div(cfg, Div(cfg, New(cfg, "123"), Text("123")), Number(123))
            == Frame(cfg) + JoinTwo(cfg, JoinTwo(cfg, "123", "123"), "123")
  {
    var x := "123";
    assert SegmentText(Number(123)) == x;
    assert Clean(cfg, x) by {
      assert x[0] == '1';
      assert !("abc" <= x);
    }
    DivChain(cfg, x, x, Number(123));
  }

  /** The spelled-out text of the four configurations below. */
  lemma ExampleText(cfg: Config)
    requires cfg == Default || cfg == Config('.', "", false)
             || cfg == Config('/', "abc", true) || cfg == Config('.', "abc", false)
    ensures var t := Frame(cfg) + JoinTwo(cfg, JoinTwo(cfg, "123", "123"), "123");
            && (cfg == Default ==> t == "/123/123/123")
            && (cfg == Config('.', "", false) ==> t == "123.123.123")
            && (cfg == Config('/', "abc", true) ==> t == "/abc/123/123/123")
            && (cfg == Config('.', "abc", false) ==> t == "abc.123.123.123")
  {
  }

  /**
   The four cases of `tests/contrib/test_path.py`, `P("123") / "123" / 123`
   for `Path`, a `.`-separated path without a leading separator, a path with
   prefix `abc`, and both. The configuration is a parameter so that the
   verifier does not evaluate the whole expression on literals.
   */
  lemma PathExamples(cfg: Config)
    requires cfg == Default || cfg == Config('.', "", false)
             || cfg == Config('/', "abc", true) || cfg == Config('.', "abc", false)
    ensures var p := Div(cfg, Div(cfg, New(cfg, "123"), Text("123")), Number(123));
            && (cfg == Default ==> p == "/123/123/123")
            && (cfg == Config('.', "", false) ==> p == "123.123.123")
            && (cfg == Config('/', "abc", true) ==> p == "/abc/123/123/123")
            && (cfg == Config('.', "abc", false) ==> p == "abc.123.123.123")
  {
    ExampleChain(cfg);
    ExampleText(cfg);
  }

  /** The parent of the root is the root. */
  lemma ParentOfRoot()
    ensures Parent(Default, "/") == "/"
  {
    ParentOfNew(Default, "");
    assert Replace(Default, "") == "";
    assert New(Default, "") == "/";
  }

  /** `parent` undoes `/` with a plain segment that holds no separator. */
  lemma ParentUndoesDiv(cfg: Config, a: string, b: string)
    requires ValidConfig(cfg)
    requires Clean(cfg, a) && Clean(cfg, b) && a != [] && b != []
    requires cfg.separator !in b
    ensures Parent(cfg, Div(cfg, New(cfg, a), Text(b))) == New(cfg, a)
  {
    var r := JoinTwo(cfg, a, b);
    DivPlain(cfg, a, b);
    JoinTwoCut(cfg, a, b);
    ParentWithSeparator(cfg, r);
  }

  /** The last separator of `a + sep + b` is the joining one when `b` has none. */
  lemma JoinTwoCut(cfg: Config, a: string, b: string)
    requires cfg.separator !in b
    ensures var r := JoinTwo(cfg, a, b);
            cfg.separator in r && r[..LastIndex(r, cfg.separator)] == a
  {
    var r := JoinTwo(cfg, a, b);
    assert r[|a|] == cfg.separator && r[|a| + 1..] == b;
    LastIndexUnique(r, cfg.separator, |a|);
    assert r[..|a|] == a;
  }

  /** The greedy scan of `"//api/x"` with prefix `"/api"` takes the two separators only. */
  lemma SlashPrefixScan(cfg: Config, s: string)
    requires cfg == Config('/', "/api", true) && s == "//api/x"
    ensures LeadingEnd(cfg, s, 0) == 2
    ensures TrailingStart(cfg, s, 2) == |s|
  {
    assert s[2..][0] == 'a';
    assert TokenLength(cfg, s, 2) == 0;
    assert TokenLength(cfg, s, 1) == 1;
    LeadingEndStep(cfg, s, 1);
    assert TokenLength(cfg, s, 0) == 1;
    LeadingEndStep(cfg, s, 0);
  }

  /**
   A prefix that starts with the separator breaks idempotence: the greedy
   scan takes both separators and then no longer sees the prefix, so the
   prefix is repeated each time a built path is rebuilt.
   */
  lemma SeparatorInPrefixRepeats(cfg: Config)
    requires cfg == Config('/', "/api", true)
    ensures !ValidConfig(cfg)
    ensures New(cfg, "x") == "//api/x"
    ensures New(cfg, New(cfg, "x")) == "//api/api/x"
  {
    assert cfg.prefix[0] == cfg.separator;
    SlashPrefixFirst(cfg);
    SlashPrefixSecond(cfg, "//api/x");
  }

  /** Rebuilding `"//api/x"` with prefix `"/api"`. */
  lemma SlashPrefixSecond(cfg: Config, s: string)
    requires cfg == Config('/', "/api", true) && s == "//api/x"
    ensures New(cfg, s) == "//api/api/x"
  {
    SlashPrefixScan(cfg, s);
    assert Replace(cfg, s) == s[2..] == "api/x";
    assert Frame(cfg) == "//api/";
  }

  /** Building from `"x"` with prefix `"/api"`. */
  lemma SlashPrefixFirst(cfg: Config)
    requires cfg == Config('/', "/api", true)
    ensures New(cfg, "x") == "//api/x"
  {
    assert Clean(cfg, "x") by {
      assert "x"[0] == 'x';
      assert !("/api" <= "x");
    }
    ReplaceClean(cfg, "x");
  }

  /** `Path()`: the omitted `object` is `...`, whose `str` is `"Ellipsis"`. */
  lemma ExampleNoArgument()
    ensures New(Default, "Ellipsis") == "/Ellipsis"
  {
    assert Replace(Default, "Ellipsis") == "Ellipsis" by {
      ReplaceClean(Default, "Ellipsis");
    }
  }
}

=== FILE: responses.dfy ===
/**
 The OpenAPI response table of `contrib/responses.py`: `build_responses`
 folds its positional arguments into a dict from status code to either
 `None` or `{"model": m}`, collects the response-info classes apart, turns
 them into a second table with `_info_responses` and folds that one in with
 `_merge_responses`.

 A pydantic model class is an opaque `Schema`; a union `A | B` of model
 classes is the set of its members, and `{"model": None}` is the empty set.
 */
module Responses {
  import opened Wrappers

  /** A pydantic model class, known only by its identity. */
  datatype Schema = Schema(name: string)

  /** A key of the table: a status code, or the `None` key a dict argument leaves behind. */
  datatype Key = Code(code: int) | NullKey

  /**
   A table entry: None is Python `None`; Some(models) is `{"model": m}` with
   `models` the classes of the union `m`, empty when `m` is `None`.
   */
  type Table = map<Key, Option<set<Schema>>>

  /** A response-info class: its `status`, and what `get_schema()` returns if it has that method. */
  datatype Info = Info(status: int, schema: Option<Schema>)

  /** One positional argument of `build_responses`. */
  datatype Arg =
    | Status(code: int)                        // a bare int
    | Pair(code: int, model: Option<Schema>)   // `(status, model)`; None stands for a falsy model
    | Dict(entries: map<int, Option<Schema>>)  // a dict from status to model
    | InfoArg(info: Info)                      // a response-info class

  /** `target[status]["model"]` read on `None`. */
  datatype BuildError = AttributeError

  /** The set of classes named by a model value, empty for `None`. */
  function ModelSet(m: Option<Schema>): set<Schema> {
    if m.Some? then {m.value} else {}
  }

  // ---------------------------------------------------------------------------
  // `_info_responses`
  // ---------------------------------------------------------------------------

  /** One iteration of the loop over the info classes. */
  function InfoStep(result: Table, info: Info): Table {
    var k := Code(info.status);
    match info.schema
    case Some(schema) =>
      if k in result && result[k].Some? && result[k].value != {} then
        result[k := Some(result[k].value + {schema})]
      else if k !in result || result[k].None? then
        result[k := Some({schema})]
      else
        result
    case None =>
      if k in result then result else result[k := None]
  }

  /** Every schema the info classes give for status `s`, in any order. */
  function StatusSchemas(infos: seq<Info>, s: int): set<Schema> {
    set i | 0 <= i < |infos| && infos[i].status == s && infos[i].schema.Some? :: infos[i].schema.value
  }

  /** The statuses the info classes name. */
  function InfoKeys(infos: seq<Info>): set<Key> {
    set i | 0 <= i < |infos| :: Code(infos[i].status)
  }

  /** What a status should map to once all of `infos` are folded in. */
  function Expected(infos: seq<Info>, s: int): Option<set<Schema>> {
    if StatusSchemas(infos, s) == {} then None else Some(StatusSchemas(infos, s))
  }

  /** `r` is the table `_info_responses` should build from `infos`. */
  predicate Describes(r: Table, infos: seq<Info>) {
    && r.Keys == InfoKeys(infos)
    && forall k | k in r :: k.Code? && r[k] == Expected(infos, k.code)
  }

  /**
   `_info_responses(*infos)`: a status maps to the union of all schemas
   given for it, whatever the order of the classes, and to None only when
   no class for it has a schema.
   */
  function InfoTable(infos: seq<Info>): (r: Table)
    decreases |infos|
    ensures r.Keys == InfoKeys(infos)
    ensures forall k | k in r :: k.Code? &&
              r[k] == if StatusSchemas(infos, k.code) == {} then None else Some(StatusSchemas(infos, k.code))
  {
    if |infos| == 0 then map[]
    else
      var init := infos[..|infos| - 1];
      var last := infos[|infos| - 1];
      var prev := InfoTable(init);
      assert Describes(prev, init);
      InfoStepDescribes(prev, init, last);
      assert init + [last] == infos;
      var r := InfoStep(prev, last);
      assert Describes(r, infos);
      r
  }

  /** One more info class keeps the table in step with the classes seen so far. */
  lemma InfoStepDescribes(prev: Table, init: seq<Info>, last: Info)
    requires Describes(prev, init)
    ensures Describes(InfoStep(prev, last), init + [last])
  {
    var infos := init + [last];
    var r := InfoStep(prev, last);
    InfoKeysSnoc(init, last);
    forall k | k in r ensures k.Code? && r[k] == Expected(infos, k.code) {
      StatusSchemasSnoc(init, last, k.code);
      if k != Code(last.status) {
        assert k in prev && r[k] == prev[k];
        assert k.Code?;
        assert prev[k] == Expected(init, k.code);
        assert StatusSchemas(infos, k.code) == StatusSchemas(init, k.code);
      } else {
        var before := StatusSchemas(init, last.status);
        if k !in prev {
          NoKeyNoSchemas(init, last.status);
        }
        assert k in prev ==> prev[k] == Expected(init, last.status);
        match last.schema
        case Some(x) =>
          assert StatusSchemas(infos, last.status) == before + {x};
          if k in prev && prev[k].Some? {
            assert before != {};
            assert r[k] == Some(before + {x});
            assert r[k] == Expected(infos, k.code);
          } else {
            assert before == {};
            assert r[k] == Some({x});
            assert StatusSchemas(infos, k.code) == {x};
          }
        case None =>
          assert StatusSchemas(infos, last.status) == before;
          if k !in prev {
            assert before == {};
          }
          assert r[k] == Expected(infos, k.code);
      }
    }
  }

  /** A status no class names has no schema. */
  lemma NoKeyNoSchemas(infos: seq<Info>, s: int)
    requires Code(s) !in InfoKeys(infos)
    ensures StatusSchemas(infos, s) == {}
  {
  }

  /** Appending one info class adds its status to the keys. */
  lemma InfoKeysSnoc(infos: seq<Info>, last: Info)
    ensures InfoKeys(infos + [last]) == InfoKeys(infos) + {Code(last.status)}
  {
    var all := infos + [last];
    forall k | k in InfoKeys(all) ensures k in InfoKeys(infos) + {Code(last.status)} {
      var i :| 0 <= i < |all| && k == Code(all[i].status);
      if i < |infos| {
        assert infos[i] == all[i];
      }
    }
    forall k | k in InfoKeys(infos) ensures k in InfoKeys(all) {
      var i :| 0 <= i < |infos| && k == Code(infos[i].status);
      assert all[i] == infos[i];
    }
    assert all[|infos|] == last;
  }

  /** Appending one info class adds at most its own schema to its own status. */
  lemma StatusSchemasSnoc(infos: seq<Info>, last: Info, s: int)
    ensures StatusSchemas(infos + [last], s)
            == StatusSchemas(infos, s) + (if last.status == s then ModelSet(last.schema) else {})
  {
    var all := infos + [last];
    forall x | x in StatusSchemas(all, s)
      ensures x in StatusSchemas(infos, s) + (if last.status == s then ModelSet(last.schema) else {})
    {
      var i :| 0 <= i < |all| && all[i].status == s && all[i].schema.Some? && x == all[i].schema.value;
      if i < |infos| {
        assert infos[i] == all[i];
      }
    }
    forall x | x in StatusSchemas(infos, s) ensures x in StatusSchemas(all, s) {
      var i :| 0 <= i < |infos| && infos[i].status == s && infos[i].schema.Some? && x == infos[i].schema.value;
      assert all[i] == infos[i];
    }
    if last.status == s && last.schema.Some? {
      assert all[|infos|] == last;
    }
  }

  /** The info table depends only on which classes are given, not on their order or repetition. */
  lemma InfoTableOrder(a: seq<Info>, b: seq<Info>)
    requires forall x :: x in a <==> x in b
    ensures InfoTable(a) == InfoTable(b)
  {
    forall s: int ensures StatusSchemas(a, s) == StatusSchemas(b, s) {
      forall x | x in StatusSchemas(a, s) ensures x in StatusSchemas(b, s) {
        var i :| 0 <= i < |a| && a[i].status == s && a[i].schema.Some? && x == a[i].schema.value;
        assert a[i] in b;
        var j :| 0 <= j < |b| && b[j] == a[i];
      }
      forall x | x in StatusSchemas(b, s) ensures x in StatusSchemas(a, s) {
        var j :| 0 <= j < |b| && b[j].status == s && b[j].schema.Some? && x == b[j].schema.value;
        assert b[j] in a;
        var i :| 0 <= i < |a| && a[i] == b[j];
      }
    }
    forall k | k in InfoKeys(a) ensures k in InfoKeys(b) {
      var i :| 0 <= i < |a| && k == Code(a[i].status);
      assert a[i] in b;
      var j :| 0 <= j < |b| && b[j] == a[i];
    }
    forall k | k in InfoKeys(b) ensures k in InfoKeys(a) {
      var j :| 0 <= j < |b| && k == Code(b[j].status);
      assert b[j] in a;
      var i :| 0 <= i < |a| && a[i] == b[j];
    }
  }

  // ---------------------------------------------------------------------------
  // `_merge_responses`
  // ---------------------------------------------------------------------------

  /** An entry of the target that the first loop reads from a `None` source entry. */
  predicate Crashes(target: Table, source: Table, k: Key) {
    k in target && target[k].Some? && k in source && source[k].None?
  }

  /**
   `_merge_responses(target, source)`, returning the updated target. An
   entry of the target is never replaced: a None stays None, a model is
   widened by the source's model. Status codes only in the source are added.
   */
  function MergeResponses(target: Table, source: Table): (r: Result<Table, BuildError>)
    ensures r.Failure? <==> exists k :: Crashes(target, source, k)
    ensures r.Success? ==> r.value.Keys == target.Keys + source.Keys
    ensures r.Success? ==> forall k | k in source && k !in target :: r.value[k] == source[k]
    ensures r.Success? ==> forall k | k in target && target[k].None? :: r.value[k].None?
    ensures r.Success? ==> forall k | k in target && target[k].Some? && (k !in source || target[k].value == {}) ::
              r.value[k] == target[k]
    ensures r.Success? ==> forall k | k in target && target[k].Some? && k in source && target[k].value != {} ::
              source[k].Some? && r.value[k] == Some(target[k].value + source[k].value)
  {
    if exists k | k in target :: Crashes(target, source, k) then Failure(AttributeError)
    else
      Success(map k | k in target.Keys + source.Keys ::
        if k !in target then source[k]
        else if target[k].Some? && k in source && source[k].Some? && target[k].value != {} then
          Some(target[k].value + source[k].value)
        else target[k])
  }

  // ---------------------------------------------------------------------------
  // `build_responses`
  // ---------------------------------------------------------------------------

  /** The keys an argument writes into the first table (info classes write none). */
  function WriteKeys(a: Arg): set<Key> {
    match a
    case Status(c) => {Code(c)}
    case Pair(c, _) => {Code(c)}
    case Dict(es) => (set c | c in es :: Code(c)) + {NullKey}
    case InfoArg(_) => {}
  }

  /** What an argument writes at one of its keys. */
  function WriteValue(a: Arg, k: Key): Option<set<Schema>>
    requires k in WriteKeys(a)
  {
    match a
    case Status(_) => None
    case Pair(_, m) => if m.Some? then Some({m.value}) else None
    case Dict(es) => if k.NullKey? then None else Some(ModelSet(es[k.code]))
  }

  /** One iteration of the loop over the arguments, for the first table. */
  function BaseStep(result: Table, a: Arg): (r: Table)
    ensures r.Keys == result.Keys + WriteKeys(a)
    ensures forall k | k in WriteKeys(a) :: r[k] == WriteValue(a, k)
    ensures forall k | k in result && k !in WriteKeys(a) :: r[k] == result[k]
  {
    match a
    case Status(c) => result[Code(c) := None]
    case Pair(c, m) => result[Code(c) := if m.Some? then Some({m.value}) else None]
    case Dict(es) => (result + map c | c in es :: Code(c) := Some(ModelSet(es[c])))[NullKey := None]
    case InfoArg(_) => result
  }

  /** The first table: every non-info argument in order, a later write replacing an earlier one. */
  function BaseTable(args: seq<Arg>): Table
    decreases |args|
  {
    if |args| == 0 then map[]
    else BaseStep(BaseTable(args[..|args| - 1]), args[|args| - 1])
  }

  /** The info classes among the arguments, in order. */
  function Infos(args: seq<Arg>): (infos: seq<Info>)
    decreases |args|
    ensures forall x :: x in infos <==> InfoArg(x) in args
  {
    if |args| == 0 then []
    else
      var init := args[..|args| - 1];
      var last := args[|args| - 1];
      assert args == init + [last];
      Infos(init) + (if last.InfoArg? then [last.info] else [])
  }

  /**
   `build_responses(*args)`: on success the table names every key some
   argument names and no other; it fails exactly when a status holds a
   model from an int, tuple or dict argument and the info classes for that
   status all lack a schema.
   */
  function BuildResponses(args: seq<Arg>): (r: Result<Table, BuildError>)
    ensures r.Success? ==> r.value.Keys == ArgKeys(args)
    ensures r.Failure? <==>
              exists c :: && Code(c) in BaseTable(args) && BaseTable(args)[Code(c)].Some?
                          && Code(c) in InfoKeys(Infos(args)) && StatusSchemas(Infos(args), c) == {}
  {
    BaseTableKeys(args);
    InfoArgKeys(args);
    ArgKeysSplit(args);
    CrashAtStatus(BaseTable(args), Infos(args));
    MergeResponses(BaseTable(args), InfoTable(Infos(args)))
  }

  /** The keys an argument names, info classes included. */
  function NamedKeys(a: Arg): set<Key> {
    if a.InfoArg? then {Code(a.info.status)} else WriteKeys(a)
  }

  /** Every key some argument names. */
  function ArgKeys(args: seq<Arg>): set<Key> {
    set i, k | 0 <= i < |args| && k in NamedKeys(args[i]) :: k
  }

  // ---------------------------------------------------------------------------
  // Laws
  // ---------------------------------------------------------------------------

  /** The first table names exactly the keys the non-info arguments write. */
  lemma {:induction false} BaseTableKeys(args: seq<Arg>)
    decreases |args|
    ensures BaseTable(args).Keys == set i, k | 0 <= i < |args| && k in WriteKeys(args[i]) :: k
  {
    if |args| > 0 {
      var init, last := args[..|args| - 1], args[|args| - 1];
      BaseTableKeys(init);
      WrittenSnoc(init, last);
      assert args == init + [last];
      assert BaseTable(args) == BaseStep(BaseTable(init), last);
    }
  }

  /** The keys written by the arguments plus one more are those of the arguments and its own. */
  lemma WrittenSnoc(init: seq<Arg>, last: Arg)
    ensures var args := init + [last];
            (set i, k | 0 <= i < |args| && k in WriteKeys(args[i]) :: k)
            == (set i, k | 0 <= i < |init| && k in WriteKeys(init[i]) :: k) + WriteKeys(last)
  {
    var args := init + [last];
    var want := set i, k | 0 <= i < |args| && k in WriteKeys(args[i]) :: k;
    var before := set i, k | 0 <= i < |init| && k in WriteKeys(init[i]) :: k;
    forall k | k in want ensures k in before + WriteKeys(last) {
      var i :| 0 <= i < |args| && k in WriteKeys(args[i]);
      if i < |init| {
        assert init[i] == args[i];
      } else {
        assert args[i] == last;
      }
    }
    forall k | k in before ensures k in want {
      var i :| 0 <= i < |init| && k in WriteKeys(init[i]);
      assert args[i] == init[i];
    }
    forall k | k in WriteKeys(last) ensures k in want {
      assert k in WriteKeys(args[|init|]);
    }
  }

  /**
   The last write wins: if argument `i` writes key `k` and no later argument
   does, the first table holds what argument `i` wrote.
   */
  lemma {:induction false} BaseTableLastWrite(args: seq<Arg>, i: nat, k: Key)
    requires i < |args| && k in WriteKeys(args[i])
    requires forall j | i < j < |args| :: k !in WriteKeys(args[j])
    decreases |args|
    ensures k in BaseTable(args) && BaseTable(args)[k] == WriteValue(args[i], k)
  {
    var init := args[..|args| - 1];
    if i < |args| - 1 {
      assert init[i] == args[i];
      forall j | i < j < |init| ensures k !in WriteKeys(init[j]) {
        assert init[j] == args[j];
      }
      BaseTableLastWrite(init, i, k);
    }
  }

  /** The statuses of the info classes among the arguments. */
  lemma InfoArgKeys(args: seq<Arg>)
    ensures InfoKeys(Infos(args)) == set i | 0 <= i < |args| && args[i].InfoArg? :: Code(args[i].info.status)
  {
    var infos := Infos(args);
    var want := set i | 0 <= i < |args| && args[i].InfoArg? :: Code(args[i].info.status);
    forall k | k in InfoKeys(infos) ensures k in want {
      var j :| 0 <= j < |infos| && k == Code(infos[j].status);
      assert InfoArg(infos[j]) in args;
      var i :| 0 <= i < |args| && args[i] == InfoArg(infos[j]);
    }
    forall k | k in want ensures k in InfoKeys(infos) {
      var i :| 0 <= i < |args| && args[i].InfoArg? && k == Code(args[i].info.status);
      assert args[i].info in infos;
      var j :| 0 <= j < |infos| && infos[j] == args[i].info;
    }
  }

  /** Every named key is written by a non-info argument or is an info class's status. */
  lemma ArgKeysSplit(args: seq<Arg>)
    ensures ArgKeys(args)
            == (set i, k | 0 <= i < |args| && k in WriteKeys(args[i]) :: k)
               + (set i | 0 <= i < |args| && args[i].InfoArg? :: Code(args[i].info.status))
  {
    var written := set i, k | 0 <= i < |args| && k in WriteKeys(args[i]) :: k;
    var named := set i | 0 <= i < |args| && args[i].InfoArg? :: Code(args[i].info.status);
    forall k | k in ArgKeys(args) ensures k in written + named {
      var i :| 0 <= i < |args| && k in NamedKeys(args[i]);
      if args[i].InfoArg? {
        assert k == Code(args[i].info.status);
      }
    }
    forall k | k in written ensures k in ArgKeys(args) {
      var i :| 0 <= i < |args| && k in WriteKeys(args[i]);
      assert k in NamedKeys(args[i]);
    }
    forall k | k in named ensures k in ArgKeys(args) {
      var i :| 0 <= i < |args| && args[i].InfoArg? && k == Code(args[i].info.status);
      assert k in NamedKeys(args[i]);
    }
  }

  /** A crash in the final merge happens at a status code, never at the `None` key. */
  lemma CrashAtStatus(base: Table, infos: seq<Info>)
    ensures (exists k :: Crashes(base, InfoTable(infos), k)) ==>
              exists c :: Code(c) in base && base[Code(c)].Some? && Code(c) in InfoKeys(infos) && StatusSchemas(infos, c) == {}
  {
    var info := InfoTable(infos);
    if exists k :: Crashes(base, info, k) {
      var k :| Crashes(base, info, k);
      assert k.Code? && Code(k.code) == k;
    }
  }

  /** Adding one argument at the end is one more step of the loop. */
  lemma BaseTableSnoc(init: seq<Arg>, a: Arg)
    ensures BaseTable(init + [a]) == BaseStep(BaseTable(init), a)
  {
    assert (init + [a])[..|init|] == init;
  }

  /** Adding one argument at the end adds its info class, if it is one. */
  lemma InfosSnoc(init: seq<Arg>, a: Arg)
    ensures Infos(init + [a]) == Infos(init) + (if a.InfoArg? then [a.info] else [])
  {
    assert (init + [a])[..|init|] == init;
  }

  /** Without info classes there is nothing for `_info_responses`. */
  lemma {:induction false} InfosNone(args: seq<Arg>)
    requires forall i | 0 <= i < |args| :: !args[i].InfoArg?
    decreases |args|
    ensures Infos(args) == []
  {
    if |args| > 0 {
      InfosNone(args[..|args| - 1]);
    }
  }

  // ---------------------------------------------------------------------------
  // Examples
  // ---------------------------------------------------------------------------

  /** The first table of the test below: the tuple overwrites the bare 200. */
  lemma ExampleBase(m: Schema)
    ensures BaseTable([Status(200), Status(201), Status(400), Status(500), Pair(200, Some(m)),
                       InfoArg(Info(202, None)), InfoArg(Info(401, Some(m)))])
            == map[Code(200) := Some({m}), Code(201) := None, Code(400) := None, Code(500) := None]
  {
    var a1 := [Status(200)];
    var a2 := a1 + [Status(201)];
    var a3 := a2 + [Status(400)];
    var a4 := a3 + [Status(500)];
    var a5 := a4 + [Pair(200, Some(m))];
    var a6 := a5 + [InfoArg(Info(202, None))];
    var a7 := a6 + [InfoArg(Info(401, Some(m)))];
    var t0: Table := map[];
    BaseTableSnoc([], Status(200));
    assert [] + [Status(200)] == a1;
    var t1 := t0[Code(200) := None];
    assert BaseTable(a1) == t1;
    BaseTableSnoc(a1, Status(201));
    var t2 := t1[Code(201) := None];
    assert BaseTable(a2) == t2;
    BaseTableSnoc(a2, Status(400));
    var t3 := t2[Code(400) := None];
    assert BaseTable(a3) == t3;
    BaseTableSnoc(a3, Status(500));
    var t4 := t3[Code(500) := None];
    assert BaseTable(a4) == t4;
    BaseTableSnoc(a4, Pair(200, Some(m)));
    var t5 := t4[Code(200) := Some({m})];
    assert BaseTable(a5) == t5;
    BaseTableSnoc(a5, InfoArg(Info(202, None)));
    BaseTableSnoc(a6, InfoArg(Info(401, Some(m))));
    assert BaseTable(a7) == t5;
    assert a7 == [Status(200), Status(201), Status(400), Status(500), Pair(200, Some(m)),
                       InfoArg(Info(202, None)), InfoArg(Info(401, Some(m)))];
  }

  /** The info table of the test below. */
  lemma ExampleInfos(m: Schema)
    ensures InfoTable([Info(202, None), Info(401, Some(m))]) == map[Code(202) := None, Code(401) := Some({m})]
  {
    var infos := [Info(202, None), Info(401, Some(m))];
    assert infos[..1] == [Info(202, None)];
    assert InfoTable([Info(202, None)]) == map[Code(202) := None];
  }

  /** The info classes of the test below, in order. */
  lemma ExampleInfoArgs(m: Schema)
    ensures Infos([Status(200), Status(201), Status(400), Status(500), Pair(200, Some(m)),
                   InfoArg(Info(202, None)), InfoArg(Info(401, Some(m)))])
            == [Info(202, None), Info(401, Some(m))]
  {
    var a5 := [Status(200), Status(201), Status(400), Status(500), Pair(200, Some(m))];
    InfosNone(a5);
    InfosSnoc(a5, InfoArg(Info(202, None)));
    InfosSnoc(a5 + [InfoArg(Info(202, None))], InfoArg(Info(401, Some(m))));
    assert a5 + [InfoArg(Info(202, None))] + [InfoArg(Info(401, Some(m)))]
           == [Status(200), Status(201), Status(400), Status(500), Pair(200, Some(m)),
               InfoArg(Info(202, None)), InfoArg(Info(401, Some(m)))];
  }

  /** The final fold of the test below: 200 keeps its model, the info statuses are added. */
  lemma ExampleMerge(m: Schema)
    ensures MergeResponses(map[Code(200) := Some({m}), Code(201) := None, Code(400) := None, Code(500) := None],
                           map[Code(202) := None, Code(401) := Some({m})])
            == Success(map[Code(200) := Some({m}), Code(201) := None, Code(202) := None,
                           Code(400) := None, Code(401) := Some({m}), Code(500) := None])
  {
    var base := map[Code(200) := Some({m}), Code(201) := None, Code(400) := None, Code(500) := None];
    var info := map[Code(202) := None, Code(401) := Some({m})];
    var want := map[Code(200) := Some({m}), Code(201) := None, Code(202) := None,
                    Code(400) := None, Code(401) := Some({m}), Code(500) := None];
    var r := MergeResponses(base, info);
    assert forall k | k in base :: k !in info;
    assert r.Success?;
    assert r.value.Keys == want.Keys;
    assert forall k | k in want :: r.value[k] == want[k];
    assert r.value == want;
  }

  /**
   `tests/contrib/test_responses.py`: `build_responses(200, 201, 400, 500,
   (200, BaseModel), Resp, DataResp)` where `Resp` has status 202 and no
   schema and `DataResp` has status 401 and schema `BaseModel`.
   */
  lemma ExampleBuild(m: Schema)
    ensures BuildResponses([Status(200), Status(201), Status(400), Status(500), Pair(200, Some(m)),
                            InfoArg(Info(202, None)), InfoArg(Info(401, Some(m)))])
            == Success(map[Code(200) := Some({m}), Code(201) := None, Code(202) := None,
                           Code(400) := None, Code(401) := Some({m}), Code(500) := None])
  {
    ExampleBase(m);
    ExampleInfoArgs(m);
    ExampleInfos(m);
    ExampleMerge(m);
  }

  /** A tuple model with a schema-less info class of the same status reads `None.get`. */
  lemma ExampleCrash(m: Schema)
    ensures BuildResponses([Pair(200, Some(m)), InfoArg(Info(200, None))]) == Failure(AttributeError)
  {
    var args := [Pair(200, Some(m)), InfoArg(Info(200, None))];
    BaseTableSnoc([Pair(200, Some(m))], InfoArg(Info(200, None)));
    InfosSnoc([Pair(200, Some(m))], InfoArg(Info(200, None)));
    assert [Pair(200, Some(m))] + [InfoArg(Info(200, None))] == args;
    assert Infos(args) == [Info(200, None)];
    assert Crashes(BaseTable(args), InfoTable(Infos(args)), Code(200));
  }

  /** A dict argument maps each status to its model and leaves a `None` key behind. */
  lemma ExampleDictArg(m: Schema)
    ensures BuildResponses([Dict(map[200 := Some(m)])]) == Success(map[Code(200) := Some({m}), NullKey := None])
  {
    var a := Dict(map[200 := Some(m)]);
    BaseTableSnoc([], a);
    assert [] + [a] == [a];
    var base := BaseTable([a]);
    assert base.Keys == {Code(200), NullKey};
    assert base == map[Code(200) := Some({m}), NullKey := None];
    InfosNone([a]);
    var empty: Table := map[];
    assert InfoTable([]) == empty;
    var r := MergeResponses(base, empty);
    assert r.Success? && r.value.Keys == base.Keys;
    assert r.value == base;
  }
}

=== FILE: wrappers.dfy ===
/** Failure-compatible wrappers shared by every module of the model. */
module Wrappers {

  /** Python's `X | None`. */
  datatype Option<+T> = None | Some(value: T) {
    predicate IsFailure() { None? }

    function PropagateFailure<U>(): Option<U>
      requires None?
    {
      None
    }

    function Extract(): T
      requires Some?
    {
      value
    }

    function GetOr(default: T): T {
      match this
      case Some(v) => v
      case None => default
    }
  }

  /** A value or the exception the source would raise instead. */
  datatype Result<+R, +E> = Success(value: R) | Failure(error: E) {
    predicate IsFailure() { Failure? }

    function PropagateFailure<U>(): Result<U, E>
      requires Failure?
    {
      Failure(error)
    }

    function Extract(): R
      requires Success?
    {
      value
    }
  }
}
